=== FILE: README.md ===
# Heat simulation communication and kernel-signature check, in Dafny

This project models two pieces of the INF8601 course repository.

The first is the MPI communication layer of the distributed heat simulation
(`tp3/source/heatsim-mpi.c`). Rank 0 holds the field cut into tiles (a
`cart2d_t`). The layer covers four steps:

- building the periodic two-dimensional process grid (`heatsim_init`);
- distributing the tiles: rank 0 sends each rank the tile at its coordinates,
  metadata first and then the cells (`heatsim_send_grids`,
  `heatsim_receive_grid`);
- exchanging the one-cell ghost borders between neighbours, as eight
  non-blocking transfers and one `MPI_Waitall` (`heatsim_exchange_borders`);
- sending the results back, one receive per rank posted straight into the cart
  tile and completed by a single `MPI_Waitall` (`heatsim_send_result`,
  `heatsim_receive_results`).

The second is the kernel-signature validator of the OpenCL exercise
(`tp2/source/matcher/matchers.cpp`). A Clang callback records the kind of each
parameter of `sinoscope_kernel`. `assertVariant` then checks those kinds against
the required parameter-passing variant, with a `switch` whose cases fall through.

## How the model is built

- **Modules.** One file per module: `Arith` (C integer conversions), `Outcomes`
  (MPI calls, failure reasons, `Result`/`Option`), `Topology`, `Tiles`,
  `Messages`, `Distribution`, `Exchange`, `Collection` and `KernelMatcher`.
- **Failures.** Every routine takes the set of MPI calls the runtime makes fail
  (`faults`). It returns the first failure in the code's order, which stands for
  the code's `return -1` or `NULL`.
  - An erroneous argument is reported as a failure of the call that receives it.
    Examples: a negative element count, a grid larger than the communicator, a
    message longer than its receive.
  - A receive that no send ever matches would block forever. It is reported as
    `Unmatched`.
- **Messages.** A message carries a `{width, height, padding}` record or a
  sequence of cells. Cells are kept as opaque 64-bit patterns, since the layer
  never computes with them.
- **Matching.** Receives match sends per (source, destination, tag) channel in
  posting order. This is the non-overtaking rule of section 3.5 of the MPI 3.1
  standard. A message shorter than its receive is accepted (section 3.2.4).
- **Data types.** Each layout is the list of buffer positions it selects:
  `MPI_Type_contiguous`, or `MPI_Type_vector` with block length 1 (section 4.1.2).
- **Grid and neighbours.** Ranks are numbered in row-major order: the rank at
  (x, y) is x * dims_y + y. `MPI_Cart_shift` wraps around on both dimensions.
- **Integers.** The C products `width * height` are modelled as an
  `unsigned int` product reduced modulo 2^32 and then read as an `int`.
- **Border orientation.** The model follows the code: row `height - 1` is sent
  to the north peer, and row `-1` is filled from the south peer. The routine's
  comment draws the exchange with the other orientation; the model does not use
  that drawing.

## Model

| member | source | states |
|---|---|---|
| Arith.U32 | tp3/source/heatsim-mpi.c:163-168 | an `unsigned int` product is below 2^32, never exceeds the exact product, and equals it when it fits |
| Arith.I32 | tp3/source/heatsim-mpi.c:71 | reading an `unsigned int` as `int` gives a value in [-2^31, 2^31), non-negative exactly when the unsigned value is below 2^31, and unchanged then |
| Topology.CartRank | tp3/source/heatsim-mpi.c:32-33 | the rank of a grid coordinate is a rank of the grid |
| Topology.CartCoords | tp3/source/heatsim-mpi.c:40-41 | the coordinate of a rank lies in the grid and is the coordinate whose rank is that rank |
| Topology.RankFormula | tp3/source/heatsim-mpi.c:32-33 | ranks are numbered row-major: the rank at (x, y) is x * dims_y + y |
| Topology.CoordsOfRank | tp3/source/heatsim-mpi.c:40-41 | coordinates of the rank of a coordinate give back that coordinate |
| Topology.CoordsInjective | tp3/source/heatsim-mpi.c:40-41 | two ranks with the same coordinates are the same rank |
| Topology.WrapIsMod | tp3/source/heatsim-mpi.c:16 | periodic wrap-around of a coordinate is its Euclidean remainder by the extent |
| Topology.Shifted | tp3/source/heatsim-mpi.c:48-58 | a coordinate displaced along one dimension, with wrap-around, stays in the grid |
| Topology.Neighbour | tp3/source/heatsim-mpi.c:48-58 | the rank `MPI_Cart_shift` returns is a rank of the grid |
| Topology.NeighbourCoords | tp3/source/heatsim-mpi.c:48-58 | the neighbour sits at the wrapped, displaced coordinate along the shifted dimension; the other coordinate is unchanged |
| Topology.ShiftedBack | tp3/source/heatsim-mpi.c:48-58 | displacing a coordinate by d and then by -d along one dimension restores it, at the edges too |
| Topology.ShiftInverse | tp3/source/heatsim-mpi.c:48-58 | the neighbour by -d of the neighbour by d is the rank itself, for every rank |
| Topology.OppositeNeighbours | tp3/source/heatsim-mpi.c:48-58 | east of west, west of east, north of south and south of north are the rank itself |
| Topology.NarrowDimensions | tp3/source/heatsim-mpi.c:48-58 | a rank is its own west neighbour iff dims_x is 1; its west and east neighbours coincide iff dims_x is at most 2; likewise south/north with dims_y |
| Topology.Init | tp3/source/heatsim-mpi.c:7-65 | succeeds iff none of its six calls fails, both extents fit in an `int`, the grid fits in the communicator and the rank lies in it; then it records rank, size, dimensions, coordinates whose rank is the rank, and four neighbours at the wrapped unit displacements |
| Tiles.IndexInjective | tp3/source/heatsim-mpi.c:286-287 | distinct cells of a padded tile occupy distinct buffer positions |
| Tiles.Create | tp3/source/heatsim-mpi.c:242-243 | a new tile is well formed, has the requested extents and padding, and holds the initial value in every cell, ghost cells included |
| Tiles.ScatterCells | tp3/source/heatsim-mpi.c:365-367 | a receive with a layout writes the k-th payload cell at the k-th selected position and leaves every other position unchanged |
| Tiles.ScatterGather | tp3/source/heatsim-mpi.c:286-300 | receiving, with a layout, what a send with the same layout transmits leaves the buffer unchanged |
| Tiles.GatherScatter | tp3/source/heatsim-mpi.c:286-300 | sending with a layout what was received with it yields the received payload |
| Tiles.ReadRow | tp3/source/heatsim-mpi.c:300 | a contiguous send of `width` cells at (0, y) carries cell (x, y) at position x |
| Tiles.ReadColumn | tp3/source/heatsim-mpi.c:286-287 | a vector send of `height` cells at stride `width_padded` from (x, 0) carries cell (x, y) at position y |
| Tiles.WriteRow | tp3/source/heatsim-mpi.c:365-367 | a row receive puts the message in the first cells of that row and changes no other cell, ghost or interior |
| Tiles.WriteColumn | tp3/source/heatsim-mpi.c:383-385 | a column receive puts the message in the first cells of that column and changes no other cell |
| Tiles.WritePrefix | tp3/source/heatsim-mpi.c:254-255 | a contiguous receive at the start of a buffer replaces exactly the received prefix |
| Messages.NonOvertaking | tp3/source/heatsim-mpi.c:229-261 | a message is taken by the receive whose number is the count of earlier messages on its channel, and each message on the channel raises that count by one, so a later message goes to a later receive |
| Messages.ChannelUnique | tp3/source/heatsim-mpi.c:357-421 | a message whose tag no other message of its sender uses is alone on its channel |
| Distribution.DataLen | tp3/source/heatsim-mpi.c:71 | `int data_len = width * height` never exceeds the product, equals it below 2^31, and is negative exactly when the wrapped product reaches 2^31 |
| Distribution.DataLenFits | tp3/source/heatsim-mpi.c:185-186 | the data transfer of a tile never reaches past its buffer |
| Distribution.ShipmentChannel | tp3/source/heatsim-mpi.c:171-186 | a shipment sits on its own rank's channel and on no other |
| Distribution.ShipmentsChannel | tp3/source/heatsim-mpi.c:151-198 | each rank's channel from rank 0 carries exactly its metadata and then its data, whatever the other ranks get |
| Distribution.Refresh | tp3/source/heatsim-mpi.c:163-169 | after a tile the cache is keyed by its product, and is rebuilt with the tile's own count unless the key already matched |
| Distribution.CachedCount | tp3/source/heatsim-mpi.c:163-185 | the data type used for a tile, once built, has that tile's `data_len` as count |
| Distribution.ShipTo | tp3/source/heatsim-mpi.c:152-197 | one iteration sends only to its rank with its rank as tag; it finishes only when every call succeeded, after sending the tile's metadata and then the cell count of the cached data type's worth of its buffer, which is exactly the tile's two reference messages; without failures, on a shippable tile with a primed cache, it finishes |
| Distribution.SendLoop | tp3/source/heatsim-mpi.c:151-198 | the loop only appends messages, each from rank 0 to a rank in range with its rank as tag |
| Distribution.SendLoopShips | tp3/source/heatsim-mpi.c:151-198 | a loop that completes sent exactly the reference shipments to every remaining rank, in rank order |
| Distribution.SendLoopClean | tp3/source/heatsim-mpi.c:151-198 | a loop that completes met no failing call on any remaining rank |
| Distribution.SendLoopCompletes | tp3/source/heatsim-mpi.c:151-198 | without failures, a loop with a primed cache completes when every remaining tile is shippable |
| Distribution.SendGrids | tp3/source/heatsim-mpi.c:121-204 | corrected routine: it sends only to ranks 1..n-1 with their rank as tag; on success it sent exactly the reference shipments; without failures on shippable tiles it succeeds |
| Distribution.SendGridsAsWritten | tp3/source/heatsim-mpi.c:121-204 | the routine with the `(unsigned) -1` sentinel: on success it too sent exactly the reference shipments |
| Distribution.AsWrittenAgrees | tp3/source/heatsim-mpi.c:146-169 | the sentinel changes nothing unless rank 1's tile has unsigned product `UINT_MAX` |
| Distribution.AsWrittenSkipsFirstType | tp3/source/heatsim-mpi.c:146-185 | when rank 1's product is `UINT_MAX` and its metadata transfer succeeds, the code as written has sent that metadata and then reaches the data send without ever building the data type it uses, while the corrected code stops at the negative count before sending anything |
| Distribution.AsWrittenMetaFirst | tp3/source/heatsim-mpi.c:171-183 | as written, a failing metadata post or wait for rank 1 ends the routine with that failure before the undefined data type is reached |
| Distribution.AsWrittenUnderShipsFrom | tp3/source/heatsim-mpi.c:146-169 | when every tile can be shipped, the sentinel never collides and the code as written behaves exactly as the corrected code, failures included |
| Distribution.WrapCartCollides | tp3/source/heatsim-mpi.c:146-163 | a 65537 x 65535 tile at rank 1 of a 2 x 1 grid has unsigned product `UINT_MAX` |
| Distribution.ReceiveGrid | tp3/source/heatsim-mpi.c:206-271 | it succeeds iff none of its calls fails and a record, then cells that fit its `data_len`, arrive from rank 0; the tile then has the announced extents and the received cells at the start of its buffer |
| Distribution.DistributeRoundTrip | tp3/source/heatsim-mpi.c:121-271 | without failures, with the sender as written, every rank ends with a tile of the cart tile's extents and padding whose first `data_len` cells are the cart tile's |
| Exchange.ReadStrip | tp3/source/heatsim-mpi.c:357-413 | a border send carries the cells of its row or column, in order |
| Exchange.WriteStrip | tp3/source/heatsim-mpi.c:365-421 | a border receive writes the first cells of its ghost row or column and changes no other cell |
| Exchange.PeersOpposite | tp3/source/heatsim-mpi.c:357-421 | the receive of a border names exactly the rank whose send of that border is addressed to the receiver |
| Exchange.FirstFailure | tp3/source/heatsim-mpi.c:286-432 | the failure reported is the first failing call in posting order, and there is none iff no call fails |
| Exchange.LocalFailure | tp3/source/heatsim-mpi.c:286-432 | a rank's own calls succeed iff none fails and the height fits the vector count; any failure is one of its calls |
| Exchange.Deposit | tp3/source/heatsim-mpi.c:365-421 | after the four receives, each ghost-strip cell holds its strip's message and every other cell is unchanged |
| Exchange.Complete | tp3/source/heatsim-mpi.c:428-432 | the Waitall succeeds iff every receive got cells that fit; otherwise it blocks when a receive is unmatched and fails when not; on success the tile is the deposit of the arrivals |
| Exchange.ExchangeRank | tp3/source/heatsim-mpi.c:275-438 | a rank's own failure is what it returns; on success the tile keeps its extents |
| Exchange.BorderChannel | tp3/source/heatsim-mpi.c:357-413 | the channel of a border's tag to a rank holds that border's strip if its send goes there, and nothing otherwise |
| Exchange.IncomingStrip | tp3/source/heatsim-mpi.c:357-425 | the receive of a border gets the named peer's matching edge, alone on its channel, and nothing when that peer's own calls fail |
| Exchange.SendsReceived | tp3/source/heatsim-mpi.c:357-425 | every posted border send is taken by exactly one receive: the same border's receive on its destination |
| Exchange.EdgeLength | tp3/source/heatsim-mpi.c:286-300 | with compatible tiles each arriving edge is exactly as long as the ghost strip it lands in |
| Exchange.NoFaultArrivals | tp3/source/heatsim-mpi.c:357-428 | without failures every receive gets the whole facing edge of the peer it names |
| Exchange.ExchangeArrivals | tp3/source/heatsim-mpi.c:357-432 | without failures and with compatible tiles every rank completes, and its receives got its neighbours' facing edges |
| Exchange.ExchangeGhostCells | tp3/source/heatsim-mpi.c:275-438 | without failures and with compatible tiles the ghost rows hold the adjacent rows of the south and north tiles, the ghost columns the adjacent columns of the east and west tiles, and every other cell is unchanged |
| Exchange.ExchangeEverywhere | tp3/source/heatsim-mpi.c:275-438 | one exchange on the whole grid: without failures and with compatible tiles every rank completes with its neighbours' facing edges in its ghost ring and its other cells unchanged |
| Exchange.TileEdges | tp3/source/heatsim-mpi.c:357-421 | the edges arriving for the four borders are the facing edges of the four tiles around the rank |
| Exchange.DepositedEdges | tp3/source/heatsim-mpi.c:365-421 | depositing the facing edges fills the ghost ring with them and keeps every other cell |
| Exchange.PeerFailureBlocks | tp3/source/heatsim-mpi.c:428-432 | a rank whose own calls succeed blocks in its Waitall when a neighbour it receives from fails |
| Exchange.OkNeedsNeighbours | tp3/source/heatsim-mpi.c:357-432 | a rank completes only if its own calls and those of the four neighbours it receives from all succeed, and it then got each neighbour's facing edge |
| Exchange.ExchangeTruncates | tp3/source/heatsim-mpi.c:428-432 | without failures, an edge longer than its ghost strip makes the Waitall fail |
| Exchange.UniformMeets | tp3/source/heatsim-mpi.c:275-438 | a grid whose ranks all hold non-empty tiles of one size within the int range, on any process grid, meets every precondition of the whole-grid results above |
| Exchange.UniformExchange | tp3/source/heatsim-mpi.c:275-438 | on such a grid, each tile filled with its own value, every rank completes: its ghost rows hold the values of its south and north neighbours, its ghost columns those of its west and east neighbours, and its interior keeps its own value |
| Exchange.TwoTileExchange | tp3/source/heatsim-mpi.c:275-438 | two 1x1 tiles holding 0 and 1 on a 2x1 grid: both ranks are in the grid, and rank 0 completes with 1 in both ghost columns and 0 in both ghost rows |
| Exchange.UniformBlocked | tp3/source/heatsim-mpi.c:428-432 | on such a grid, a rank blocks in its Waitall when the neighbour it receives from, another rank, fails in its own Waitall |
| Collection.WholeTile | tp3/source/heatsim-mpi.c:441-449 | an unpadded tile whose cell count fits an `int` travels whole |
| Collection.SendResult | tp3/source/heatsim-mpi.c:440-466 | it succeeds iff its post and wait succeed and `len` is not negative; it then sent one message to rank 0 with its rank as tag, carrying the tile's cells; on failure it sent nothing |
| Collection.RequestFor | tp3/source/heatsim-mpi.c:495-507 | the receive for rank r names r as source and tag and the cart tile at r's coordinates, for no more than that tile's buffer |
| Collection.PostFailure | tp3/source/heatsim-mpi.c:495-511 | a failing iteration fails at its coordinate query or at its post |
| Collection.FirstUnposted | tp3/source/heatsim-mpi.c:492-512 | it returns the first rank whose iteration fails, with every earlier iteration succeeding |
| Collection.PostResults | tp3/source/heatsim-mpi.c:492-512 | posting succeeds iff every rank 1..n-1 posts; slot k then holds the receive for rank k + 1; otherwise the first failing rank's failure is reported |
| Collection.Fill | tp3/source/heatsim-mpi.c:506-507 | a receive into a tile replaces exactly the prefix it received and keeps the extents |
| Collection.Deliver | tp3/source/heatsim-mpi.c:515 | completing the receives keeps the set of cart tiles |
| Collection.DeliverFrame | tp3/source/heatsim-mpi.c:515 | a tile no receive names keeps its contents |
| Collection.DeliverFills | tp3/source/heatsim-mpi.c:515 | the tile a receive names holds what that receive got |
| Collection.ReceiveResults | tp3/source/heatsim-mpi.c:468-533 | on success no allocation or wait failed and the cart keeps its tiles |
| Collection.ResultsOk | tp3/source/heatsim-mpi.c:468-533 | the collection succeeds iff no allocation or wait fails and every rank 1..n-1 posts and gets its message |
| Collection.ResultsLand | tp3/source/heatsim-mpi.c:492-519 | after success, the tile at each rank's coordinates holds that rank's cells at its start and the rest of its buffer unchanged |
| Collection.ResultsFrame | tp3/source/heatsim-mpi.c:492-519 | after success, tiles at coordinates of no rank 1..n-1, rank 0's among them, are unchanged |
| Collection.CollectOk | tp3/source/heatsim-mpi.c:440-533 | without failures, with tiles matching the cart's extents, every sender and rank 0 succeed |
| Collection.ResultArrives | tp3/source/heatsim-mpi.c:449-507 | without failures, rank r's whole tile arrives on the receive rank 0 posts for it |
| Collection.FillWhole | tp3/source/heatsim-mpi.c:503-507 | receiving a whole unpadded tile into one of the same extents yields that tile |
| Collection.CollectLands | tp3/source/heatsim-mpi.c:440-533 | without failures rank r's tile lands whole in the cart tile at r's coordinates |
| Collection.CollectRoundTrip | tp3/source/heatsim-mpi.c:440-533 | without failures rank 0's cart holds every sender's tile at its coordinates and every other tile as before |
| Collection.DistributeWhole | tp3/source/heatsim-mpi.c:121-271 | without failures, with the sender as written, an unpadded tile arrives whole: each rank receives exactly its cart tile |
| Collection.CollectRestores | tp3/source/heatsim-mpi.c:440-533 | sending rank 0 back the very tiles of its cart restores the cart |
| Collection.DistributeThenCollect | tp3/source/heatsim-mpi.c:121-533 | distributing unpadded tiles with the sender as written and sending each received tile back leaves rank 0 with the cart it started from |
| KernelMatcher.AssertB | tp2/source/matcher/matchers.cpp:20-24 | a failed condition throws its message behind the "OpenCL : Failed assertion, " prefix; a holding one passes |
| KernelMatcher.AssertVariant | tp2/source/matcher/matchers.cpp:26-66 | without a matched kernel the check throws "Compilation failed" and prints nothing; otherwise the diagnostic is printed iff the first parameter is not a pointer |
| KernelMatcher.FirstFailing | tp2/source/matcher/matchers.cpp:42-64 | the check a fall-through stops at comes from its label onward and does not hold |
| KernelMatcher.FallFromPasses | tp2/source/matcher/matchers.cpp:42-64 | entering the fall-through at a label passes iff every check from that label to the end of the `switch` holds |
| KernelMatcher.FallFromFirstFailure | tp2/source/matcher/matchers.cpp:42-64 | the fall-through stops at the first check from its label that does not hold |
| KernelMatcher.PassesExactly | tp2/source/matcher/matchers.cpp:36-65 | `IntStructFloatStruct` passes iff there are 3 parameters, the last two structs; `OneByOne` never passes; `Struct` and `IntStructFloatOneByOne` pass iff there are exactly 2 parameters, the second a struct; `FloatStructIntOneByOne` passes iff the second is a struct and all later ones are floats |
| KernelMatcher.FirstArgumentIgnored | tp2/source/matcher/matchers.cpp:31-34 | the first parameter's kind never changes the verdict |
| KernelMatcher.OneByOneNeverPasses | tp2/source/matcher/matchers.cpp:42-51 | `OneByOne` fails with its own message when a later parameter is neither float nor integer, and with the struct message otherwise |
| KernelMatcher.OneByOneWitness | tp2/source/matcher/matchers.cpp:42-51 | a pointer, a float and an integer are rejected under `OneByOne` as written and accepted with a `break` after each case |
| KernelMatcher.SwitchIntended | tp2/source/matcher/matchers.cpp:36-65 | corrected `switch`, against the fall-through as written: it accepts every signature the fall-through accepts, and gives the same verdict for `IntStructFloatStruct` (ended by its `break`) and `FloatStructIntOneByOne` (the last case); any other variant passes iff its own check holds and otherwise fails with its own message |
| KernelMatcher.AssertVariantIntended | tp2/source/matcher/matchers.cpp:26-66 | corrected check: `OneByOne` passes iff every later parameter is a float or an integer; `Struct` passes iff the second parameter is a struct |
| KernelMatcher.AsWrittenStricter | tp2/source/matcher/matchers.cpp:36-65 | whatever passes as written passes the corrected check; `IntStructFloatStruct` and `FloatStructIntOneByOne` behave the same in both |
| KernelMatcher.ClassifyFirstHolding | tp2/source/matcher/matchers.cpp:80-90 | a parameter gets the first kind, in the order float, integral, aggregate, pointer, whose predicate holds, and is unhandled iff none holds |
| KernelMatcher.Run | tp2/source/matcher/matchers.cpp:68-93 | no match leaves the callback alone; a match sets the flag and appends one kind per parameter in order, or throws "Unhandled type" at the first unclassifiable one, keeping the kinds appended before it |

## Left out

- **MPI progress.** Non-blocking progress, the scheduling of `MPI_Wait` and
  `MPI_Waitall`, and deadlock are not modelled. A receive that nothing matches
  is reported as `Unmatched` rather than as a hang.
- **Partly posted sends.** A send counts as delivered only when the routine that
  posted it does not fail on its own side. The code can return -1 after posting
  some sends, which the runtime may still deliver. The model drops them. The
  metadata of `heatsim_send_grids`, already waited for, is the exception and is
  kept, also when the data send that follows it uses an undefined data type.
- **Data type lifecycle.** Creating and committing data types is modelled only
  as a call that can fail. The types the code never frees, and the tile leaked
  when `heatsim_receive_grid` fails, are resource matters and are not modelled.
- **Logging.** `printf` and the matcher's diagnostic text are left out. The
  diagnostic appears only as the `warned` flag.
- **`grid_create`.** Its header and implementation are not part of this model.
  The initial contents of a new tile are the parameter `fill`, and a `NULL`
  return (out of memory) is not modelled.
- **`calloc`.** Failures of the two allocations of `heatsim_receive_results`,
  including `calloc(0)` returning `NULL` with a single rank, are the faults
  `AllocRequests` and `AllocStatuses`. Which of them happens is the caller's
  choice, not the allocator's.
- **Exchange inputs.** The exchange requires tiles that are non-empty with
  padding 1 (the routine asserts the padding), a height below 2^32 and a padded
  width that fits an `int` stride. A height of 2^31 or more is modelled as a
  failing `MPI_Type_vector`. Degenerate tiles are left out.
- **Tile sizing.** Tiles are given inputs. Compatibility of neighbouring tiles
  is a precondition of the exchange results, because the cart2d splitting code
  is not part of this model.
- **Layouts.** Only block length 1 is modelled; the code uses no other.
- **Requirements.** `assertVariant` reads only the first component of its
  requirements tuple, and that is all the model takes.
- **Clang.** The Clang AST is replaced by a record of the four type predicates
  for each parameter. The AST context passed to `isIntegralType` is dropped.
- **Empty signatures.** `args.front()`, and the `args[1]` read by every case
  except `IntStructFloatStruct`, are undefined on short parameter lists. A
  matched callback must therefore have at least one parameter, and at least two
  unless the variant is `IntStructFloatStruct` (`KernelMatcher.Checkable`).
- **Last two checks.** The checks of `IntStructFloatOneByOne` and
  `FloatStructIntOneByOne` are modelled as written: the first demands integers
  after the struct, the second floats. This is although each one's message
  describes the other kind. The corrected `switch` keeps these conditions.
- **Other exercises.** The thread and TBB pipelines of `tp1` and the OpenCL
  host code of `tp2` are outside the modelled core.

## Findings

| source | as written | input that shows it | evidently intended | confidence | as-written member | corrected member |
|---|---|---|---|---|---|---|
| tp3/source/heatsim-mpi.c:146-169 | `last_size` starts at `(unsigned) -1`, and the data type is built only when `height * width` differs from it | a 2 x 1 grid whose rank 1 holds a 65537 x 65535 tile: its product is 2^32 - 1, so no data type is ever built: rank 1's metadata goes out and its data is then sent with an uninitialised type (`Distribution.WrapCartCollides`) | the first tile always gets a data type built for it (there, one whose count is negative, which `MPI_Type_create_struct` rejects) | not executed; high | Distribution.SendGridsAsWritten, Distribution.AsWrittenSkipsFirstType, Distribution.AsWrittenMetaFirst | Distribution.SendGrids |
| tp2/source/matcher/matchers.cpp:42-64 | the `OneByOne`, `Struct` and `IntStructFloatOneByOne` cases have no `break`, so each also runs every later case's check | `OneByOne` with parameters pointer, float, integer: the following `Struct` check fails, and no input passes `OneByOne` at all | each variant runs only its own check | not executed; high | KernelMatcher.AssertVariant, KernelMatcher.OneByOneNeverPasses, KernelMatcher.OneByOneWitness | KernelMatcher.AssertVariantIntended |

=== FILE: arith.dfy ===
/** C integer conversions used by the simulation, and the division facts the
    padded-index and strided-layout proofs rest on. */
module Arith {

  /** 2^32: the modulus of C's `unsigned int`. */
  const TWO_32: nat := 0x1_0000_0000

  /** `UINT_MAX`, the value of `(unsigned int) -1`. */
  const UINT_MAX: nat := 0xFFFF_FFFF

  /** 2^31: the first `unsigned int` value that does not fit in an `int`. */
  const TWO_31: nat := 0x8000_0000

  /** The value of an unsigned C product or sum once truncated to `unsigned int`. */
  function U32(n: nat): (r: nat)
    ensures r < TWO_32
    ensures n < TWO_32 ==> r == n
    ensures r <= n
  {
    n % TWO_32
  }

  /** The two's-complement reading of an `unsigned int` as an `int`, as every
      target of the simulation performs `int len = width * height`. */
  function I32(u: nat): (r: int)
    requires u < TWO_32
    ensures -(TWO_31 as int) <= r < TWO_31
    ensures r >= 0 <==> u < TWO_31
    ensures r >= 0 ==> r == u
  {
    if u < TWO_31 then u else u - TWO_32
  }

  /** Euclidean division is unique: a value written as q*s + d with 0 <= d < s
      has quotient q and remainder d. */
  lemma DivModUnique(o: int, s: int, q: int, d: int)
    requires s > 0
    requires o == q * s + d
    requires 0 <= d < s
    ensures o / s == q
    ensures o % s == d
  {
    var q', d' := o / s, o % s;
    assert o == q' * s + d';
    assert (q - q') * s == d' - d;
    if q - q' >= 1 {
      MulAtLeast(q - q', s);
    } else if q' - q >= 1 {
      MulAtLeast(q' - q, s);
    }
  }

  /** A positive multiple of s is at least s. */
  lemma MulAtLeast(a: int, s: int)
    requires a >= 1 && s > 0
    ensures a * s >= s
  {
    assert a * s == (a - 1) * s + s;
    assert (a - 1) * s >= 0;
  }

  /** Multiplication by a non-negative factor is monotonic. */
  lemma MulMonotonic(a: int, b: int, c: int)
    requires a <= b && c >= 0
    ensures a * c <= b * c
  {
    assert b * c - a * c == (b - a) * c;
    assert (b - a) * c >= 0;
  }

  /** Adding or removing one modulus leaves the Euclidean remainder unchanged. */
  lemma ModShift(v: int, n: int)
    requires n > 0
    ensures (v + n) % n == v % n
    ensures (v - n) % n == v % n
  {
    var q, m := v / n, v % n;
    assert v == q * n + m;
    assert (q + 1) * n == q * n + n;
    assert (q - 1) * n == q * n - n;
    DivModUnique(v + n, n, q + 1, m);
    DivModUnique(v - n, n, q - 1, m);
  }
}

=== FILE: collection.dfy ===
/** Collection of the results (tp3/source/heatsim-mpi.c, heatsim_send_result and
    heatsim_receive_results): every rank other than 0 sends the cells of its
    unpadded tile to rank 0, tagged with its own rank; rank 0 posts one receive
    per rank straight into the cart tile at that rank's coordinates and
    completes them with a single Waitall. */
module Collection {
  import opened Arith
  import opened Outcomes
  import opened Topology
  import opened Tiles
  import opened Messages
  import opened Distribution

  // ---------------------------------------------------------------------
  // Sending side

  /** The cells a result message carries: the first `int len = width * height`
      cells of the buffer. */
  function ResultCells(g: Grid): (cells: seq<Cell>)
    requires g.Valid() && DataLen(g.width, g.height) >= 0
    ensures |cells| == DataLen(g.width, g.height)
    ensures forall i :: 0 <= i < |cells| ==> cells[i] == g.data[i]
  {
    DataLenFits(g);
    g.data[..DataLen(g.width, g.height)]
  }

  /** An unpadded tile whose cell count is an int travels whole. */
  lemma WholeTile(g: Grid)
    requires g.Valid() && g.padding == 0 && g.width * g.height < TWO_31
    ensures DataLen(g.width, g.height) == |g.data|
    ensures ResultCells(g) == g.data
  {
  }

  /** heatsim_send_result on rank `rank` (its tile must be unpadded): post the
      send of the tile's cells to rank 0 with the rank as tag, then wait. A
      negative count is an erroneous argument of the post. The message counts
      as sent only once both calls succeed. */
  function SendResult(rank: nat, g: Grid, faults: set<Call>): (p: Posting)
    requires g.Valid() && g.padding == 0
    ensures p.status == Done <==>
              PostData(rank) !in faults && WaitData(rank) !in faults && DataLen(g.width, g.height) >= 0
    ensures p.status.Aborted? ==>
              p.sent == [] && p.status.reason in {Failed(PostData(rank)), Failed(WaitData(rank))}
    ensures p.status == Done ==>
              && |p.sent| == 1 && p.sent[0].src == rank
              && (forall dst, tag :: Channel(p.sent, dst, tag) == if dst == 0 && tag == rank then [Cells(ResultCells(g))] else [])
  {
    if PostData(rank) in faults || DataLen(g.width, g.height) < 0 then Posting([], Aborted(Failed(PostData(rank))))
    else if WaitData(rank) in faults then Posting([], Aborted(Failed(WaitData(rank))))
    else Posting([Message(rank, 0, rank, Cells(ResultCells(g)))], Done)
  }

  // ---------------------------------------------------------------------
  // Receiving side

  /** A posted receive: from `src` with tag `tag`, into the cart tile at `at`,
      for at most `count` cells. */
  datatype Request = Request(src: nat, tag: nat, at: Coord, count: int)

  /** The receive posted for rank r: from r, tagged r, into the tile at r's
      coordinates, for that tile's DataLen cells. */
  function RequestFor(d: Dims, cart: Cart, r: nat): (q: Request)
    requires CartComplete(d, cart) && r < d.Size()
    ensures q.src == r && q.tag == r && q.at == CartCoords(d, r) && q.at in cart
    ensures q.count <= |cart[q.at].data|
  {
    var t := TileOf(d, cart, r);
    DataLenFits(t);
    Request(r, r, CartCoords(d, r), DataLen(t.width, t.height))
  }

  /** The coordinate query and the post for rank r succeed: r is a rank of the
      grid and its tile's cell count is not negative. */
  predicate Posts(d: Dims, cart: Cart, faults: set<Call>, r: nat)
    requires CartComplete(d, cart)
  {
    && r < d.Size() && CoordsQuery(r) !in faults
    && PostData(r) !in faults && DataLen(TileOf(d, cart, r).width, TileOf(d, cart, r).height) >= 0
  }

  /** Which step of rank r's iteration fails. */
  function PostFailure(d: Dims, cart: Cart, faults: set<Call>, r: nat): (e: Reason)
    requires CartComplete(d, cart) && !Posts(d, cart, faults, r)
    ensures e == Failed(CoordsQuery(r)) || e == Failed(PostData(r))
  {
    if r >= d.Size() || CoordsQuery(r) in faults then Failed(CoordsQuery(r)) else Failed(PostData(r))
  }

  /** The first rank from `rank` on whose iteration fails, n if none does. */
  function FirstUnposted(d: Dims, n: nat, cart: Cart, faults: set<Call>, rank: nat): (f: nat)
    requires CartComplete(d, cart)
    decreases n - rank
    ensures rank <= f && (rank < n ==> f <= n)
    ensures f < n ==> !Posts(d, cart, faults, f)
    ensures forall q :: rank <= q < f && q < n ==> Posts(d, cart, faults, q)
  {
    if rank >= n || !Posts(d, cart, faults, rank) then rank else FirstUnposted(d, n, cart, faults, rank + 1)
  }

  /** The posting loop of heatsim_receive_results over ranks 1..n-1: the first
      rank whose coordinate query or post fails aborts it; otherwise slot k of
      the request array (of n - 1 slots) holds the receive for rank k + 1. */
  function PostResults(d: Dims, n: nat, cart: Cart, faults: set<Call>): (res: Result<seq<Request>>)
    requires CartComplete(d, cart)
    ensures res.Ok? <==> forall r :: 1 <= r < n ==> Posts(d, cart, faults, r)
    ensures res.Ok? ==> |res.value| == (if n == 0 then 0 else n - 1)
    ensures res.Ok? ==> forall k :: 0 <= k < |res.value| ==>
              Posts(d, cart, faults, k + 1) && res.value[k] == RequestFor(d, cart, k + 1)
    ensures res.Err? ==>
              var f := FirstUnposted(d, n, cart, faults, 1);
              f < n && res.reason == PostFailure(d, cart, faults, f)
  {
    var f := FirstUnposted(d, n, cart, faults, 1);
    if f < n then Err(PostFailure(d, cart, faults, f))
    else if n <= 1 then Ok([])
    else
      Ok(seq(n - 1, k requires 0 <= k < n - 1 => assert Posts(d, cart, faults, k + 1); RequestFor(d, cart, k + 1)))
  }

  /** No two requests write into the same tile. */
  predicate Disjoint(reqs: seq<Request>) {
    forall i, j :: 0 <= i < j < |reqs| ==> reqs[i].at != reqs[j].at
  }

  /** What the receive of request q got: the first message its source sent to
      rank 0 with its tag. */
  function Arrival(sends: map<nat, seq<Message>>, q: Request): Option<Payload> {
    Receive(sends, q.src, 0, q.tag, 0)
  }

  /** The cells the receive of q put in its buffer, if it completed: cells
      arrived, no more than it posted for. */
  function Landed(sends: map<nat, seq<Message>>, q: Request): (o: Option<seq<Cell>>)
    ensures o.Some? <==> Arrival(sends, q).Some? && Arrival(sends, q).value.Cells? && |Arrival(sends, q).value.cells| <= q.count
    ensures o.Some? ==> Arrival(sends, q) == Some(Cells(o.value))
  {
    match Arrival(sends, q)
    case Some(Cells(c)) => if |c| <= q.count then Some(c) else None
    case _ => None
  }

  /** A tile after a receive of at most `count` cells put `cells` at the start of
      its buffer. */
  function Fill(t: Grid, count: int, cells: seq<Cell>): (t': Grid)
    requires 0 <= count <= |t.data| && |cells| <= count
    ensures t'.width == t.width && t'.height == t.height && t'.padding == t.padding
    ensures |t'.data| == |t.data| && (t.Valid() ==> t'.Valid())
    ensures t'.data[..|cells|] == cells && t'.data[|cells|..] == t.data[|cells|..]
  {
    t.(data := WritePrefix(t.data, count, cells))
  }

  /** Every request writes into its own tile of the cart, within its buffer,
      and its receive completed. */
  predicate Deliverable(cart: Cart, reqs: seq<Request>, sends: map<nat, seq<Message>>) {
    && Disjoint(reqs)
    && forall k :: 0 <= k < |reqs| ==>
         reqs[k].at in cart && 0 <= reqs[k].count <= |cart[reqs[k].at].data| && Landed(sends, reqs[k]).Some?
  }

  /** The completed receives of `reqs`, in slot order, each filling its tile. */
  function Deliver(cart: Cart, reqs: seq<Request>, sends: map<nat, seq<Message>>): (out: Cart)
    requires Deliverable(cart, reqs, sends)
    decreases |reqs|
    ensures out.Keys == cart.Keys
  {
    if |reqs| == 0 then cart
    else
      var q := reqs[0];
      var cart1 := cart[q.at := Fill(cart[q.at], q.count, Landed(sends, q).value)];
      assert forall k :: 1 <= k < |reqs| ==> reqs[k].at != q.at && cart1[reqs[k].at] == cart[reqs[k].at];
      Deliver(cart1, reqs[1..], sends)
  }

  /** A tile no request names keeps its contents. */
  lemma {:induction false} DeliverFrame(cart: Cart, reqs: seq<Request>, sends: map<nat, seq<Message>>, c: Coord)
    requires Deliverable(cart, reqs, sends) && c in cart
    requires forall k :: 0 <= k < |reqs| ==> reqs[k].at != c
    decreases |reqs|
    ensures Deliver(cart, reqs, sends)[c] == cart[c]
  {
    if |reqs| > 0 {
      var q := reqs[0];
      var cart1 := cart[q.at := Fill(cart[q.at], q.count, Landed(sends, q).value)];
      assert forall k :: 1 <= k < |reqs| ==> reqs[k].at != q.at && cart1[reqs[k].at] == cart[reqs[k].at];
      assert forall k :: 0 <= k < |reqs| - 1 ==> reqs[1..][k] == reqs[k + 1];
      DeliverFrame(cart1, reqs[1..], sends, c);
    }
  }

  /** The tile request k names holds what its receive got, at the start of its
      buffer. */
  lemma {:induction false} DeliverFills(cart: Cart, reqs: seq<Request>, sends: map<nat, seq<Message>>, k: nat)
    requires Deliverable(cart, reqs, sends) && k < |reqs|
    decreases |reqs|
    ensures Deliver(cart, reqs, sends)[reqs[k].at] == Fill(cart[reqs[k].at], reqs[k].count, Landed(sends, reqs[k]).value)
  {
    var q := reqs[0];
    var cart1 := cart[q.at := Fill(cart[q.at], q.count, Landed(sends, q).value)];
    assert forall j :: 1 <= j < |reqs| ==> reqs[j].at != q.at && cart1[reqs[j].at] == cart[reqs[j].at];
    assert forall j :: 0 <= j < |reqs| - 1 ==> reqs[1..][j] == reqs[j + 1];
    if k == 0 {
      DeliverFrame(cart1, reqs[1..], sends, q.at);
    } else {
      DeliverFills(cart1, reqs[1..], sends, k - 1);
    }
  }

  /** The single Waitall of heatsim_receive_results over the posted requests:
      it never returns if a receive has no matching send, reports an error if a
      message does not fit its receive, and otherwise fills every tile. */
  function WaitAll(cart: Cart, reqs: seq<Request>, sends: map<nat, seq<Message>>, faults: set<Call>): (res: Result<Cart>)
    requires Disjoint(reqs)
    requires forall k :: 0 <= k < |reqs| ==> reqs[k].at in cart && 0 <= reqs[k].count <= |cart[reqs[k].at].data|
    ensures res.Ok? <==> WaitResults !in faults && forall k :: 0 <= k < |reqs| ==> Landed(sends, reqs[k]).Some?
    ensures res.Err? ==> res.reason == Failed(WaitResults) || res.reason == Unmatched(WaitResults)
    ensures res.Err? && WaitResults !in faults ==>
              (res.reason == Unmatched(WaitResults) <==> exists k :: 0 <= k < |reqs| && Arrival(sends, reqs[k]).None?)
    ensures res.Ok? ==> Deliverable(cart, reqs, sends) && res.value == Deliver(cart, reqs, sends)
  {
    if WaitResults in faults then Err(Failed(WaitResults))
    else if exists k :: 0 <= k < |reqs| && Arrival(sends, reqs[k]).None? then Err(Unmatched(WaitResults))
    else if exists k :: 0 <= k < |reqs| && Landed(sends, reqs[k]).None? then Err(Failed(WaitResults))
    else Ok(Deliver(cart, reqs, sends))
  }

  /** heatsim_receive_results on rank 0 of an n-rank run: allocate the request
      and status arrays, post a receive per rank 1..n-1 into the cart tile at its
      coordinates, then complete them all with one Waitall. */
  function ReceiveResults(d: Dims, n: nat, cart: Cart, sends: map<nat, seq<Message>>, faults: set<Call>): (res: Result<Cart>)
    requires CartComplete(d, cart)
    ensures res.Ok? ==> AllocRequests !in faults && AllocStatuses !in faults && WaitResults !in faults
    ensures res.Ok? ==> res.value.Keys == cart.Keys
  {
    if AllocRequests in faults then Err(Failed(AllocRequests))
    else if AllocStatuses in faults then Err(Failed(AllocStatuses))
    else match PostResults(d, n, cart, faults)
      case Err(e) => Err(e)
      case Ok(reqs) =>
        assert forall r :: 1 <= r < n ==> Posts(d, cart, faults, r) && reqs[r - 1] == RequestFor(d, cart, (r - 1) + 1);
        WaitAll(cart, reqs, sends, faults)
  }

  /** heatsim_receive_results succeeds exactly when none of its calls fails and
      every rank 1..n-1 is a rank of the grid with a tile whose cell count is an
      int, whose result message arrived and fits. */
  lemma ResultsOk(d: Dims, n: nat, cart: Cart, sends: map<nat, seq<Message>>, faults: set<Call>)
    requires CartComplete(d, cart)
    ensures ReceiveResults(d, n, cart, sends, faults).Ok? <==>
              && AllocRequests !in faults && AllocStatuses !in faults && WaitResults !in faults
              && forall r :: 1 <= r < n ==> Posts(d, cart, faults, r) && Landed(sends, RequestFor(d, cart, r)).Some?
  {
    var posted := PostResults(d, n, cart, faults);
    if posted.Ok? {
      var reqs := posted.value;
      assert forall r :: 1 <= r < n ==> Posts(d, cart, faults, r) && reqs[r - 1] == RequestFor(d, cart, r);
    }
  }

  /** After a successful collection, the tile at the coordinates of each rank
      1..n-1 holds at its start the cells that rank sent, and the rest of its
      buffer is unchanged. */
  lemma ResultsLand(d: Dims, n: nat, cart: Cart, sends: map<nat, seq<Message>>, faults: set<Call>, r: nat)
    requires CartComplete(d, cart) && 1 <= r < n
    requires ReceiveResults(d, n, cart, sends, faults).Ok?
    ensures Posts(d, cart, faults, r) && Landed(sends, RequestFor(d, cart, r)).Some?
    ensures var t', t, cells := ReceiveResults(d, n, cart, sends, faults).value[CartCoords(d, r)], TileOf(d, cart, r),
                                Landed(sends, RequestFor(d, cart, r)).value;
            && Receive(sends, r, 0, r, 0) == Some(Cells(cells))
            && t' == Fill(t, RequestFor(d, cart, r).count, cells)
  {
    var reqs := PostResults(d, n, cart, faults).value;
    assert Posts(d, cart, faults, r);
    assert reqs[r - 1] == RequestFor(d, cart, r);
    DeliverFills(cart, reqs, sends, r - 1);
  }

  /** A successful collection changes no tile other than those at the
      coordinates of ranks 1..n-1; in particular rank 0's own tile. */
  lemma ResultsFrame(d: Dims, n: nat, cart: Cart, sends: map<nat, seq<Message>>, faults: set<Call>, c: Coord)
    requires CartComplete(d, cart) && c in cart
    requires !InGrid(d, c) || CartRank(d, c) == 0 || CartRank(d, c) >= n
    requires ReceiveResults(d, n, cart, sends, faults).Ok?
    ensures ReceiveResults(d, n, cart, sends, faults).value[c] == cart[c]
  {
    var reqs := PostResults(d, n, cart, faults).value;
    forall k | 0 <= k < |reqs| ensures reqs[k].at != c {
      assert Posts(d, cart, faults, k + 1) && reqs[k] == RequestFor(d, cart, k + 1);
    }
    DeliverFrame(cart, reqs, sends, c);
  }

  // ---------------------------------------------------------------------
  // The whole collection

  /** Every rank 1..n-1 holds an unpadded result tile, as heatsim_send_result
      asserts. */
  ghost predicate ResultTiles(n: nat, grids: map<nat, Grid>) {
    forall r :: 1 <= r < n ==> r in grids && grids[r].Valid() && grids[r].padding == 0
  }

  /** What ranks 1..n-1 send rank 0 when each runs heatsim_send_result. */
  function ResultSends(n: nat, grids: map<nat, Grid>, faults: map<nat, set<Call>>): (sends: map<nat, seq<Message>>)
    requires ResultTiles(n, grids)
    ensures forall r :: r in sends <==> 1 <= r < n
  {
    map r: nat | 1 <= r < n :: SendResult(r, grids[r], FaultsOf(faults, r)).sent
  }

  /** Outcome of the collection on every rank: the status of each sender and
      rank 0's cart (or its failure). */
  datatype Collection = Collection(senders: map<nat, Status>, receiver: Result<Cart>)

  /** The whole collection over n ranks: ranks 1..n-1 send their tiles, rank 0
      receives them into `cart`. */
  function Collect(d: Dims, n: nat, cart: Cart, grids: map<nat, Grid>, faults: map<nat, set<Call>>): (out: Collection)
    requires CartComplete(d, cart) && ResultTiles(n, grids)
    ensures forall r :: r in out.senders <==> 1 <= r < n
    ensures forall r :: 1 <= r < n ==>
              out.senders[r] == SendResult(r, grids[r], FaultsOf(faults, r)).status
    ensures out.receiver == ReceiveResults(d, n, cart, ResultSends(n, grids, faults), FaultsOf(faults, 0))
  {
    Collection(map r: nat | 1 <= r < n :: SendResult(r, grids[r], FaultsOf(faults, r)).status,
               ReceiveResults(d, n, cart, ResultSends(n, grids, faults), FaultsOf(faults, 0)))
  }

  /** Each sender's tile has the extents of the cart tile at its coordinates, and
      its cell count is an int. */
  ghost predicate Matching(d: Dims, n: nat, cart: Cart, grids: map<nat, Grid>)
    requires CartComplete(d, cart)
  {
    && ResultTiles(n, grids)
    && (1 < n ==> n <= d.Size())
    && forall r :: 1 <= r < n ==>
         && r < d.Size()
         && TileOf(d, cart, r).width == grids[r].width && TileOf(d, cart, r).height == grids[r].height
         && TileOf(d, cart, r).padding == 0
         && grids[r].width * grids[r].height < TWO_31
  }

  /** Without failures, rank r's tile lands whole in the cart tile at r's
      coordinates. */
  lemma CollectLands(d: Dims, n: nat, cart: Cart, grids: map<nat, Grid>, r: nat)
    requires CartComplete(d, cart) && Matching(d, n, cart, grids) && 1 <= r < n
    ensures Collect(d, n, cart, grids, map[]).receiver.Ok?
    ensures Collect(d, n, cart, grids, map[]).receiver.value[CartCoords(d, r)] == grids[r]
  {
    CollectOk(d, n, cart, grids);
    ResultArrives(d, n, cart, grids, r);
    ResultsLand(d, n, cart, ResultSends(n, grids, map[]), {}, r);
    FillWhole(TileOf(d, cart, r), RequestFor(d, cart, r).count, grids[r]);
  }

  /** Filling an unpadded tile with the whole buffer of a tile of the same
      extents yields that tile. */
  lemma FillWhole(t: Grid, count: int, g: Grid)
    requires t.Valid() && g.Valid() && t.padding == 0 && g.padding == 0
    requires t.width == g.width && t.height == g.height
    requires 0 <= count <= |t.data| && |g.data| <= count
    ensures Fill(t, count, g.data) == g
  {
    var t' := Fill(t, count, g.data);
    assert |g.data| == |t.data|;
    assert t'.data == t'.data[..|g.data|];
  }

  /** Without failures the collection succeeds on every rank. */
  lemma CollectOk(d: Dims, n: nat, cart: Cart, grids: map<nat, Grid>)
    requires CartComplete(d, cart) && Matching(d, n, cart, grids)
    ensures forall r :: r in Collect(d, n, cart, grids, map[]).senders ==> Collect(d, n, cart, grids, map[]).senders[r] == Done
    ensures Collect(d, n, cart, grids, map[]).receiver.Ok?
  {
    var sends := ResultSends(n, grids, map[]);
    forall r | 1 <= r < n
      ensures Posts(d, cart, {}, r) && Landed(sends, RequestFor(d, cart, r)).Some?
    {
      ResultArrives(d, n, cart, grids, r);
    }
    ResultsOk(d, n, cart, sends, {});
  }

  /** Without failures, rank 0 posts the receive for rank r and rank r's whole
      tile arrives on it. */
  lemma ResultArrives(d: Dims, n: nat, cart: Cart, grids: map<nat, Grid>, r: nat)
    requires CartComplete(d, cart) && Matching(d, n, cart, grids) && 1 <= r < n
    ensures Posts(d, cart, {}, r)
    ensures Landed(ResultSends(n, grids, map[]), RequestFor(d, cart, r)) == Some(grids[r].data)
  {
    var sends := ResultSends(n, grids, map[]);
    var g := grids[r];
    WholeTile(g);
    assert Posts(d, cart, {}, r);
    assert Channel(sends[r], 0, r) == [Cells(g.data)];
  }

  /** Collection round trip: without failures, rank 0's cart afterwards holds
      every sender's tile at that sender's coordinates and every other tile as
      before, rank 0's own among them. */
  lemma CollectRoundTrip(d: Dims, n: nat, cart: Cart, grids: map<nat, Grid>)
    requires CartComplete(d, cart) && Matching(d, n, cart, grids)
    ensures Collect(d, n, cart, grids, map[]).receiver.Ok?
    ensures var out := Collect(d, n, cart, grids, map[]).receiver.value;
            && out.Keys == cart.Keys
            && (forall r :: 1 <= r < n ==> out[CartCoords(d, r)] == grids[r])
            && (forall c :: c in cart && (!InGrid(d, c) || CartRank(d, c) == 0 || CartRank(d, c) >= n) ==>
                  out[c] == cart[c])
  {
    CollectOk(d, n, cart, grids);
    var sends := ResultSends(n, grids, map[]);
    forall r | 1 <= r < n ensures Collect(d, n, cart, grids, map[]).receiver.value[CartCoords(d, r)] == grids[r] {
      CollectLands(d, n, cart, grids, r);
    }
    forall c | c in cart && (!InGrid(d, c) || CartRank(d, c) == 0 || CartRank(d, c) >= n)
      ensures Collect(d, n, cart, grids, map[]).receiver.value[c] == cart[c]
    {
      ResultsFrame(d, n, cart, sends, {}, c);
    }
  }

  // ---------------------------------------------------------------------
  // Distribution followed by collection

  /** Every tile rank 0 hands out to ranks 1..n-1 is unpadded and its cell count
      is an int. */
  ghost predicate Unpadded(d: Dims, n: nat, cart: Cart)
    requires CartComplete(d, cart)
  {
    && (1 < n ==> n <= d.Size())
    && forall r :: 1 <= r < n ==>
         r < d.Size() && TileOf(d, cart, r).padding == 0
         && TileOf(d, cart, r).width * TileOf(d, cart, r).height < TWO_31
  }

  /** The tiles ranks 1..n-1 ended the distribution with. */
  function Received(n: nat, out: Distribution): (grids: map<nat, Grid>)
    requires forall r :: 1 <= r < n ==> r in out.received && out.received[r].Ok?
    ensures forall r :: r in grids <==> 1 <= r < n
    ensures forall r :: 1 <= r < n ==> Ok(grids[r]) == out.received[r]
  {
    map r: nat | 1 <= r < n :: out.received[r].value
  }

  /** Unpadded tiles whose cell count is an int can all be shipped. */
  lemma UnpaddedShips(d: Dims, n: nat, cart: Cart)
    requires CartComplete(d, cart) && Unpadded(d, n, cart)
    ensures ShipsFrom(d, n, cart, 1)
  {
    forall q | 1 <= q < n ensures q < d.Size() && Shippable(d, cart, q) {
      assert q < d.Size();
    }
  }

  /** Two unpadded tiles of the same extents that agree on their first
      width * height cells are the same tile. */
  lemma SameTile(g: Grid, t: Grid)
    requires g.Valid() && t.Valid() && t.padding == 0 && t.width * t.height < TWO_31
    requires g.width == t.width && g.height == t.height && g.padding == t.padding
    requires DataLen(t.width, t.height) <= |g.data| && DataLen(t.width, t.height) <= |t.data|
    requires g.data[..DataLen(t.width, t.height)] == t.data[..DataLen(t.width, t.height)]
    ensures g == t
  {
    assert |t.data| == t.width * t.height == |g.data|;
    assert g.data == g.data[..|g.data|];
    assert t.data == t.data[..|t.data|];
  }

  /** Without failures, an unpadded tile travels whole: every rank 1..n-1
      receives exactly the cart tile at its coordinates. */
  lemma DistributeWhole(d: Dims, n: nat, cart: Cart, fill: Cell, r: nat)
    requires CartComplete(d, cart) && Unpadded(d, n, cart) && 1 <= r < n
    ensures Distribute(d, n, cart, map[], fill).received[r] == Ok(TileOf(d, cart, r))
  {
    UnpaddedShips(d, n, cart);
    DistributeRoundTrip(d, n, cart, fill, r);
    SameTile(Distribute(d, n, cart, map[], fill).received[r].value, TileOf(d, cart, r));
  }

  /** The cart's own tiles, sent back, satisfy what the collection expects. */
  lemma TilesMatch(d: Dims, n: nat, cart: Cart, grids: map<nat, Grid>)
    requires CartComplete(d, cart) && Unpadded(d, n, cart)
    requires forall r :: 1 <= r < n ==> r in grids && grids[r] == TileOf(d, cart, r)
    ensures Matching(d, n, cart, grids)
  {
    forall r | 1 <= r < n ensures r < d.Size() && grids[r] == TileOf(d, cart, r) {
      assert r < d.Size();
    }
  }

  /** Sent back its own tiles, rank 0's cart keeps each tile. */
  lemma RestoredAt(d: Dims, n: nat, cart: Cart, grids: map<nat, Grid>, c: Coord)
    requires CartComplete(d, cart) && Matching(d, n, cart, grids) && c in cart
    requires forall r :: 1 <= r < n ==> grids[r] == TileOf(d, cart, r)
    ensures Collect(d, n, cart, grids, map[]).receiver.Ok?
    ensures Collect(d, n, cart, grids, map[]).receiver.value[c] == cart[c]
  {
    CollectRoundTrip(d, n, cart, grids);
    if InGrid(d, c) && 1 <= CartRank(d, c) < n {
      CoordsOfRank(d, c);
    }
  }

  /** Sending rank 0 back the very tiles of its cart restores the cart. */
  lemma CollectRestores(d: Dims, n: nat, cart: Cart, grids: map<nat, Grid>)
    requires CartComplete(d, cart) && Matching(d, n, cart, grids)
    requires forall r :: 1 <= r < n ==> grids[r] == TileOf(d, cart, r)
    ensures Collect(d, n, cart, grids, map[]).receiver == Ok(cart)
  {
    CollectOk(d, n, cart, grids);
    var out := Collect(d, n, cart, grids, map[]).receiver.value;
    forall c | c in cart ensures out[c] == cart[c] {
      RestoredAt(d, n, cart, grids, c);
    }
    assert out == cart;
  }

  /** Distribution then collection round trip: without failures and with
      unpadded tiles, rank 0 distributes its cart, every rank sends back the tile
      it received, and rank 0 ends with the cart it started from. */
  lemma DistributeThenCollect(d: Dims, n: nat, cart: Cart, fill: Cell)
    requires CartComplete(d, cart) && Unpadded(d, n, cart)
    ensures var out := Distribute(d, n, cart, map[], fill);
            && (forall r :: 1 <= r < n ==> r in out.received && out.received[r].Ok?)
            && ResultTiles(n, Received(n, out))
            && Collect(d, n, cart, Received(n, out), map[]).receiver == Ok(cart)
  {
    var out := Distribute(d, n, cart, map[], fill);
    forall r | 1 <= r < n ensures r in out.received && out.received[r] == Ok(TileOf(d, cart, r)) {
      DistributeWhole(d, n, cart, fill, r);
    }
    TilesMatch(d, n, cart, Received(n, out));
    CollectRestores(d, n, cart, Received(n, out));
  }
}

=== FILE: distribution.dfy ===
/** Distribution of the decomposed field (tp3/source/heatsim-mpi.c,
    heatsim_send_grids and heatsim_receive_grid): rank 0 sends every other rank
    the tile at that rank's coordinates, first its `{width, height, padding}`
    record and then its data, both tagged with the destination rank; the
    receiver allocates a tile of the announced extents and receives the data into
    it. */
module Distribution {
  import opened Arith
  import opened Outcomes
  import opened Topology
  import opened Tiles
  import opened Messages

  /** The coordinator's decomposed field (cart2d_t): a tile per coordinate. */
  type Cart = map<Coord, Grid>

  /** Every coordinate of the process grid holds a valid tile. */
  ghost predicate CartComplete(d: Dims, cart: Cart) {
    forall c :: InGrid(d, c) ==> c in cart && cart[c].Valid()
  }

  /** cart2d_get_grid at the coordinates of rank r. */
  function TileOf(d: Dims, cart: Cart, r: nat): (g: Grid)
    requires CartComplete(d, cart) && r < d.Size()
    ensures g.Valid()
  {
    cart[CartCoords(d, r)]
  }

  /** `int data_len = width * height` (and `int len` of the result transfer): the
      unsigned product wraps modulo 2^32 and is then read as a signed int. */
  function DataLen(width: nat, height: nat): (len: int)
    ensures len <= width * height
    ensures width * height < TWO_31 ==> len == width * height
    ensures len >= 0 <==> U32(width * height) < TWO_31
  {
    I32(U32(width * height))
  }

  /** The data transfer of a tile never reaches past its buffer. */
  lemma DataLenFits(g: Grid)
    requires g.Valid()
    ensures DataLen(g.width, g.height) <= |g.data|
  {
    MulMonotonic(g.width, g.WidthPadded(), g.height);
    MulMonotonic(g.height, g.HeightPadded(), g.WidthPadded());
  }

  /** create_data_struct succeeds for rank r's tile: its block count is not negative. */
  predicate Shippable(d: Dims, cart: Cart, r: nat)
    requires CartComplete(d, cart) && r < d.Size()
  {
    DataLen(TileOf(d, cart, r).width, TileOf(d, cart, r).height) >= 0
  }

  /** Every destination rank from `from` on exists in the grid and its tile can be
      described by a data type. */
  predicate ShipsFrom(d: Dims, n: nat, cart: Cart, from: nat)
    requires CartComplete(d, cart)
  {
    && (from < n ==> n <= d.Size())
    && forall r :: from <= r < n ==> r < d.Size() && Shippable(d, cart, r)
  }

  /** The metadata message for a tile. */
  function MetaOf(g: Grid): Payload {
    Meta(g.width, g.height, g.padding)
  }

  /** Reference definition of what rank 0 ships to ranks from..upto-1: for each,
      in rank order, its metadata and then the first DataLen cells of its buffer,
      both from rank 0 and tagged with the destination rank. */
  function Shipments(d: Dims, cart: Cart, from: nat, upto: nat): seq<Message>
    requires CartComplete(d, cart) && (from < upto ==> upto <= d.Size())
    requires forall r :: from <= r < upto ==> (r < d.Size() && Shippable(d, cart, r))
    decreases upto - from
  {
    if from >= upto then []
    else
      assert Shippable(d, cart, from);
      var g := TileOf(d, cart, from);
      DataLenFits(g);
      ShipmentOf(from, g) + Shipments(d, cart, from + 1, upto)
  }

  /** What tile g's receiver gets: its metadata, then the first DataLen cells
      of its buffer. */
  function Payloads(g: Grid): (ps: seq<Payload>)
    requires g.Valid() && DataLen(g.width, g.height) >= 0
    ensures |ps| == 2 && ps[0] == MetaOf(g) && ps[1].Cells?
    ensures |ps[1].cells| == DataLen(g.width, g.height)
    ensures ps[1].cells == g.data[..DataLen(g.width, g.height)]
  {
    DataLenFits(g);
    [MetaOf(g), Cells(g.data[..DataLen(g.width, g.height)])]
  }

  /** The two messages shipping tile g to rank r. */
  function ShipmentOf(r: nat, g: Grid): (ms: seq<Message>)
    requires g.Valid() && DataLen(g.width, g.height) >= 0
    ensures |ms| == 2
    ensures forall i :: 0 <= i < 2 ==> ms[i] == Message(0, r, r, Payloads(g)[i])
  {
    [Message(0, r, r, Payloads(g)[0]), Message(0, r, r, Payloads(g)[1])]
  }

  /** A shipment is on the channel of its own rank and tag, and on no other. */
  lemma ShipmentChannel(r: nat, g: Grid, k: nat)
    requires g.Valid() && DataLen(g.width, g.height) >= 0
    ensures Channel(ShipmentOf(r, g), k, k) == if k == r then Payloads(g) else []
  {
    var ms := ShipmentOf(r, g);
    assert ms[1..][1..] == [];
  }

  /** Rank r's channel from rank 0 carries its metadata and then its data. */
  lemma {:induction false} ShipmentsChannel(d: Dims, cart: Cart, from: nat, upto: nat, r: nat)
    requires CartComplete(d, cart) && (from < upto ==> upto <= d.Size())
    requires forall k :: from <= k < upto ==> (k < d.Size() && Shippable(d, cart, k))
    requires r < d.Size()
    decreases upto - from
    ensures from <= r < upto ==>
              && Shippable(d, cart, r)
              && Channel(Shipments(d, cart, from, upto), r, r) == Payloads(TileOf(d, cart, r))
    ensures !(from <= r < upto) ==> Channel(Shipments(d, cart, from, upto), r, r) == []
  {
    if from < upto {
      assert Shippable(d, cart, from);
      var g := TileOf(d, cart, from);
      ShipmentsChannel(d, cart, from + 1, upto, r);
      ChannelAppend(ShipmentOf(from, g), Shipments(d, cart, from + 1, upto), r, r);
      ShipmentChannel(from, g, r);
    }
  }

  /** The data type heatsim_send_grids keeps between iterations: the product it
      was last built for (`last_size`) and the block count of the built type,
      if one was built. */
  datatype Cache = Cache(lastSize: Option<nat>, built: Option<int>)

  /** A built type always matches the product it is cached under. */
  predicate Consistent(c: Cache) {
    c.built.Some? ==>
      c.lastSize.Some? && c.lastSize.value < TWO_32
      && c.built.value == I32(c.lastSize.value) && c.built.value >= 0
  }

  /** A cached product always has a type behind it. */
  predicate Primed(c: Cache) {
    c.lastSize.Some? ==> c.built.Some?
  }

  /** What a sending routine posted (a message counts once its post and its wait
      both succeeded) and how it ended. */
  datatype Posting = Posting(sent: seq<Message>, status: Status)

  /** `grid->height * grid->width` in `unsigned int`, the key of the data type
      cache. */
  function TileProduct(g: Grid): (size: nat)
    ensures size < TWO_32
  {
    MulMonotonic(0, g.height, g.width);
    U32(g.height * g.width)
  }

  /** None of the calls shipping to rank r failed. */
  predicate ShipsCleanly(faults: set<Call>, r: nat) {
    CoordsQuery(r) !in faults && PostMeta(r) !in faults && WaitMeta(r) !in faults
    && PostData(r) !in faults && WaitData(r) !in faults
  }

  /** How one iteration of the loop ends: aborted after sending `sent`, or
      having shipped `sent` and holding `cache` for the next rank. */
  datatype Step = Stop(sent: seq<Message>, reason: Reason) | Next(cache: Cache, sent: seq<Message>)

  /** One iteration of the loop of heatsim_send_grids, for rank `rank`: look up
      its coordinates, rebuild the data type unless the unsigned product matches
      the cached one, then send the metadata and the data, waiting after each. */
  function ShipTo(d: Dims, cart: Cart, faults: set<Call>, rank: nat, cache: Cache): (s: Step)
    requires CartComplete(d, cart) && Consistent(cache)
    ensures forall i :: 0 <= i < |s.sent| ==> s.sent[i].src == 0 && s.sent[i].dst == rank && s.sent[i].tag == rank
    ensures s.Next? ==>
              && rank < d.Size() && ShipsCleanly(faults, rank) && Shippable(d, cart, rank)
              && Consistent(s.cache) && s.sent == ShipmentOf(rank, TileOf(d, cart, rank))
              && (Primed(cache) ==> Primed(s.cache))
    ensures faults == {} && rank < d.Size() && Shippable(d, cart, rank) && Primed(cache) ==> s.Next?
  {
    if CoordsQuery(rank) in faults || rank >= d.Size() then Stop([], Failed(CoordsQuery(rank)))
    else
      var g := TileOf(d, cart, rank);
      var size := TileProduct(g);
      if cache.lastSize != Some(size) && (DataStruct(rank) in faults || I32(size) < 0) then
        Stop([], Failed(DataStruct(rank)))
      else
        var cache' := Refresh(cache, size);
        var meta := Message(0, rank, rank, MetaOf(g));
        if PostMeta(rank) in faults then Stop([], Failed(PostMeta(rank)))
        else if WaitMeta(rank) in faults then Stop([], Failed(WaitMeta(rank)))
        else if cache'.built.None? then Stop([meta], Undefined)
        else
          // the data goes out with the cached type: its count cells of the buffer
          CachedCount(g, cache, size);
          DataLenFits(g);
          var data := Message(0, rank, rank, Cells(g.data[..cache'.built.value]));
          if PostData(rank) in faults then Stop([meta], Failed(PostData(rank)))
          else if WaitData(rank) in faults then Stop([meta], Failed(WaitData(rank)))
          else
            assert [meta, data] == ShipmentOf(rank, g);
            Next(cache', [meta, data])
  }

  /** The loop of heatsim_send_grids from `rank` on, with the data type cache and
      the messages sent so far. */
  function SendLoop(d: Dims, n: nat, cart: Cart, faults: set<Call>, rank: nat, cache: Cache, sent: seq<Message>): (o: Posting)
    requires CartComplete(d, cart) && Consistent(cache)
    decreases n - rank
    ensures |sent| <= |o.sent| && o.sent[..|sent|] == sent
    ensures forall i :: |sent| <= i < |o.sent| ==>
              o.sent[i].src == 0 && rank <= o.sent[i].dst < n && o.sent[i].tag == o.sent[i].dst
  {
    if rank >= n then Posting(sent, Done)
    else match ShipTo(d, cart, faults, rank, cache)
      case Stop(part, reason) => Posting(sent + part, Aborted(reason))
      case Next(cache', ms) => SendLoop(d, n, cart, faults, rank + 1, cache', sent + ms)
  }

  /** A loop that completes has shipped, after what was already sent, exactly the
      reference shipments to every rank from `rank` on. */
  lemma {:induction false} SendLoopShips(d: Dims, n: nat, cart: Cart, faults: set<Call>, rank: nat, cache: Cache, sent: seq<Message>)
    requires CartComplete(d, cart) && Consistent(cache)
    decreases n - rank
    ensures var o := SendLoop(d, n, cart, faults, rank, cache, sent);
            o.status.Done? ==> ShipsFrom(d, n, cart, rank) && o.sent == sent + Shipments(d, cart, rank, n)
  {
    if rank >= n {
      LoopExhausted(d, n, cart, faults, rank, cache, sent);
    } else if SendLoop(d, n, cart, faults, rank, cache, sent).status.Done? {
      var step := ShipTo(d, cart, faults, rank, cache);
      assert step.Next?;
      SendLoopShips(d, n, cart, faults, rank + 1, step.cache, sent + step.sent);
      ShipsFromStep(d, n, cart, rank);
    }
  }

  /** A loop that completes met no failing call on any rank from `rank` on. */
  lemma {:induction false} SendLoopClean(d: Dims, n: nat, cart: Cart, faults: set<Call>, rank: nat, cache: Cache, sent: seq<Message>)
    requires CartComplete(d, cart) && Consistent(cache)
    decreases n - rank
    ensures SendLoop(d, n, cart, faults, rank, cache, sent).status.Done? ==>
              forall r :: rank <= r < n ==> ShipsCleanly(faults, r)
  {
    if rank < n && SendLoop(d, n, cart, faults, rank, cache, sent).status.Done? {
      var step := ShipTo(d, cart, faults, rank, cache);
      assert step.Next? && ShipsCleanly(faults, rank);
      SendLoopClean(d, n, cart, faults, rank + 1, step.cache, sent + step.sent);
    }
  }

  /** Past the last rank the loop sends nothing more and completes. */
  lemma LoopExhausted(d: Dims, n: nat, cart: Cart, faults: set<Call>, rank: nat, cache: Cache, sent: seq<Message>)
    requires CartComplete(d, cart) && Consistent(cache) && n <= rank
    ensures SendLoop(d, n, cart, faults, rank, cache, sent) == Posting(sent, Done)
    ensures ShipsFrom(d, n, cart, rank) && Shipments(d, cart, rank, n) == []
  {
  }

  /** Shipping from `rank` is shipping its tile, then shipping from the next rank. */
  lemma ShipsFromStep(d: Dims, n: nat, cart: Cart, rank: nat)
    requires CartComplete(d, cart) && rank < n && rank < d.Size() && Shippable(d, cart, rank)
    requires ShipsFrom(d, n, cart, rank + 1)
    ensures ShipsFrom(d, n, cart, rank)
    ensures Shipments(d, cart, rank, n) == ShipmentOf(rank, TileOf(d, cart, rank)) + Shipments(d, cart, rank + 1, n)
  {
  }

  /** The cache after the tile of unsigned product `size`: rebuilt unless the
      product is the cached one. */
  function Refresh(cache: Cache, size: nat): (c: Cache)
    requires Consistent(cache) && size < TWO_32
    requires cache.lastSize != Some(size) ==> I32(size) >= 0
    ensures Consistent(c) && c.lastSize == Some(size)
    ensures Primed(cache) ==> Primed(c)
    ensures cache.lastSize != Some(size) ==> c.built == Some(I32(size))
  {
    if cache.lastSize != Some(size) then Cache(Some(size), Some(I32(size))) else cache
  }

  /** The type the loop sends a tile's data with, once built, has the tile's
      DataLen as its count. */
  lemma CachedCount(g: Grid, cache: Cache, size: nat)
    requires Consistent(cache) && size == TileProduct(g)
    requires cache.lastSize != Some(size) ==> I32(size) >= 0
    requires Refresh(cache, size).built.Some?
    ensures Refresh(cache, size).built.value == DataLen(g.width, g.height) >= 0
  {
    assert g.height * g.width == g.width * g.height;
  }

  /** Without failures, a loop whose cache is primed ships to every rank that
      has a shippable tile. */
  lemma {:induction false} SendLoopCompletes(d: Dims, n: nat, cart: Cart, rank: nat, cache: Cache, sent: seq<Message>)
    requires CartComplete(d, cart) && Consistent(cache) && Primed(cache)
    requires ShipsFrom(d, n, cart, rank)
    decreases n - rank
    ensures SendLoop(d, n, cart, {}, rank, cache, sent).status.Done?
  {
    if rank < n {
      assert rank < d.Size() && Shippable(d, cart, rank);
      var step := ShipTo(d, cart, {}, rank, cache);
      SendLoopCompletes(d, n, cart, rank + 1, step.cache, sent + step.sent);
    }
  }

  /** heatsim_send_grids, with the data type cache starting empty: rank 0 posts
      to ranks 1..n-1 exactly the reference shipments, and fails as soon as a
      call fails, a rank has no coordinates or a tile's count is negative. */
  function SendGrids(d: Dims, n: nat, cart: Cart, faults: set<Call>): (o: Posting)
    requires CartComplete(d, cart)
    ensures forall i :: 0 <= i < |o.sent| ==>
              o.sent[i].src == 0 && 1 <= o.sent[i].dst < n && o.sent[i].tag == o.sent[i].dst
    ensures o.status.Done? ==>
              GridStruct !in faults && ShipsFrom(d, n, cart, 1) && o.sent == Shipments(d, cart, 1, n)
    ensures faults == {} && ShipsFrom(d, n, cart, 1) ==> o.status.Done?
  {
    if GridStruct in faults then Posting([], Aborted(Failed(GridStruct)))
    else
      StartCompletes(d, n, cart);
      SendLoopShips(d, n, cart, faults, 1, Cache(None, None), []);
      SendLoop(d, n, cart, faults, 1, Cache(None, None), [])
  }

  /** The corrected loop, started with an empty cache, completes on good input. */
  lemma StartCompletes(d: Dims, n: nat, cart: Cart)
    requires CartComplete(d, cart)
    ensures ShipsFrom(d, n, cart, 1) ==> SendLoop(d, n, cart, {}, 1, Cache(None, None), []).status.Done?
  {
    if ShipsFrom(d, n, cart, 1) {
      SendLoopCompletes(d, n, cart, 1, Cache(None, None), []);
    }
  }

  /** heatsim_send_grids as written: `last_size` starts at `(unsigned) -1` and the
      data type starts unbuilt. */
  function SendGridsAsWritten(d: Dims, n: nat, cart: Cart, faults: set<Call>): (o: Posting)
    requires CartComplete(d, cart)
    ensures o.status.Done? ==>
              GridStruct !in faults && ShipsFrom(d, n, cart, 1) && o.sent == Shipments(d, cart, 1, n)
  {
    if GridStruct in faults then Posting([], Aborted(Failed(GridStruct)))
    else
      SendLoopShips(d, n, cart, faults, 1, Cache(Some(UINT_MAX), None), []);
      SendLoop(d, n, cart, faults, 1, Cache(Some(UINT_MAX), None), [])
  }

  /** Unsigned product of the tile rank 1 gets, which the as-written sentinel
      is compared with first. */
  function FirstProduct(d: Dims, cart: Cart): nat
    requires CartComplete(d, cart) && 1 < d.Size()
  {
    TileProduct(TileOf(d, cart, 1))
  }

  /** An iteration whose tile misses the cache behaves the same whatever the
      cache held. */
  lemma ShipToMiss(d: Dims, cart: Cart, faults: set<Call>, rank: nat, c1: Cache, c2: Cache)
    requires CartComplete(d, cart) && Consistent(c1) && Consistent(c2) && rank < d.Size()
    requires c1.lastSize != Some(TileProduct(TileOf(d, cart, rank)))
    requires c2.lastSize != Some(TileProduct(TileOf(d, cart, rank)))
    ensures ShipTo(d, cart, faults, rank, c1) == ShipTo(d, cart, faults, rank, c2)
  {
  }

  /** Two loops that differ only in a cache not matching the next tile's product
      behave alike. */
  lemma SameFromMiss(d: Dims, n: nat, cart: Cart, faults: set<Call>, c1: Cache, c2: Cache)
    requires CartComplete(d, cart) && Consistent(c1) && Consistent(c2)
    requires 1 < n && 1 < d.Size()
    requires c1.lastSize != Some(FirstProduct(d, cart)) && c2.lastSize != Some(FirstProduct(d, cart))
    ensures SendLoop(d, n, cart, faults, 1, c1, []) == SendLoop(d, n, cart, faults, 1, c2, [])
  {
    ShipToMiss(d, cart, faults, 1, c1, c2);
  }

  /** As written, the sentinel only matters for a first tile whose unsigned
      product is UINT_MAX; for every other input both versions behave alike. */
  lemma AsWrittenAgrees(d: Dims, n: nat, cart: Cart, faults: set<Call>)
    requires CartComplete(d, cart)
    requires n <= 1 || d.Size() <= 1 || FirstProduct(d, cart) != UINT_MAX
    ensures SendGridsAsWritten(d, n, cart, faults) == SendGrids(d, n, cart, faults)
  {
    if GridStruct !in faults && 1 < n && 1 < d.Size() {
      SameFromMiss(d, n, cart, faults, Cache(Some(UINT_MAX), None), Cache(None, None));
    }
  }

  /** The sentinel collides: when rank 1's tile has unsigned product UINT_MAX, the
      code as written never builds its data type and sends the data with an
      undefined type, where the corrected code rejects the tile because its
      count is negative. */
  lemma AsWrittenSkipsFirstType(d: Dims, n: nat, cart: Cart, faults: set<Call>)
    requires CartComplete(d, cart) && 1 < n && 1 < d.Size()
    requires GridStruct !in faults && CoordsQuery(1) !in faults
    requires PostMeta(1) !in faults && WaitMeta(1) !in faults
    requires FirstProduct(d, cart) == UINT_MAX
    ensures SendGridsAsWritten(d, n, cart, faults).status == Aborted(Undefined)
    ensures SendGridsAsWritten(d, n, cart, faults).sent == [Message(0, 1, 1, MetaOf(TileOf(d, cart, 1)))]
    ensures SendGrids(d, n, cart, faults) == Posting([], Aborted(Failed(DataStruct(1))))
  {
  }

  /** Rank 1's metadata goes out before its data type is first used: as written,
      a failing metadata post or wait ends the routine before the undefined use,
      whatever rank 1's product. */
  lemma AsWrittenMetaFirst(d: Dims, n: nat, cart: Cart, faults: set<Call>)
    requires CartComplete(d, cart) && 1 < n && 1 < d.Size()
    requires GridStruct !in faults && CoordsQuery(1) !in faults
    requires FirstProduct(d, cart) == UINT_MAX
    requires PostMeta(1) in faults || WaitMeta(1) in faults
    ensures SendGridsAsWritten(d, n, cart, faults) ==
              Posting([], Aborted(Failed(if PostMeta(1) in faults then PostMeta(1) else WaitMeta(1))))
  {
  }

  /** On tiles the routine can ship, the sentinel never collides: the code as
      written and the corrected code behave alike, failures included. */
  lemma AsWrittenUnderShipsFrom(d: Dims, n: nat, cart: Cart, faults: set<Call>)
    requires CartComplete(d, cart) && ShipsFrom(d, n, cart, 1)
    ensures SendGridsAsWritten(d, n, cart, faults) == SendGrids(d, n, cart, faults)
  {
    if 1 < n {
      var g := TileOf(d, cart, 1);
      assert Shippable(d, cart, 1);
      assert g.height * g.width == g.width * g.height;
      assert FirstProduct(d, cart) < TWO_31;
    }
    AsWrittenAgrees(d, n, cart, faults);
  }

  /** A 65537 x 65535 tile at rank 1: its product is 2^32 - 1 == UINT_MAX. */
  function WrapCart(): (cart: Cart)
    ensures CartComplete(Dims(2, 1), cart)
  {
    var cart := map[Coord(0, 0) := Create(1, 1, 0, 0), Coord(1, 0) := Create(65537, 65535, 0, 0)];
    assert forall c :: InGrid(Dims(2, 1), c) ==> c == Coord(0, 0) || c == Coord(1, 0);
    cart
  }

  /** The collision is reachable: two processes on a 2 x 1 grid, rank 1 holding a
      65537 x 65535 tile. */
  lemma WrapCartCollides()
    ensures FirstProduct(Dims(2, 1), WrapCart()) == UINT_MAX
  {
    var d := Dims(2, 1);
    assert CartCoords(d, 1) == Coord(1, 0);
    assert 65535 * 65537 == UINT_MAX;
  }

  /** Did heatsim_receive_grid get what it needs: a record from rank 0 first, a
      data type it can build for that record's extents, then cells that fit. */
  predicate Receivable(sends: map<nat, seq<Message>>, rank: nat)
  {
    && Receive(sends, 0, rank, rank, 0).Some? && Receive(sends, 0, rank, rank, 0).value.Meta?
    && var m := Receive(sends, 0, rank, rank, 0).value;
       && DataLen(m.width, m.height) >= 0
       && Receive(sends, 0, rank, rank, 1).Some? && Receive(sends, 0, rank, rank, 1).value.Cells?
       && |Receive(sends, 0, rank, rank, 1).value.cells| <= DataLen(m.width, m.height)
  }

  /** The calls heatsim_receive_grid makes on rank `rank`, in order. */
  function ReceiveCalls(rank: nat): seq<Call> {
    [GridStruct, PostMeta(rank), WaitMeta(rank), DataStruct(rank), PostData(rank), WaitData(rank)]
  }

  /** heatsim_receive_grid on rank `rank`: receive the metadata from rank 0, create
      a tile of those extents, then receive DataLen cells into the start of its
      buffer. A message longer than the receive, or a record where cells are
      expected, fails the wait; a receive nothing matches never returns. */
  function ReceiveGrid(rank: nat, sends: map<nat, seq<Message>>, faults: set<Call>, fill: Cell): (r: Result<Grid>)
    ensures r.Ok? <==> (forall c :: c in ReceiveCalls(rank) ==> c !in faults) && Receivable(sends, rank)
    ensures r.Ok? ==>
              && r.value.Valid()
              && Receive(sends, 0, rank, rank, 0) == Some(MetaOf(r.value))
              && var c := Receive(sends, 0, rank, rank, 1).value.cells;
                 |c| <= |r.value.data| && r.value.data[..|c|] == c
  {
    if GridStruct in faults then Err(Failed(GridStruct))
    else if PostMeta(rank) in faults then Err(Failed(PostMeta(rank)))
    else if WaitMeta(rank) in faults then Err(Failed(WaitMeta(rank)))
    else match Receive(sends, 0, rank, rank, 0)
      case None => Err(Unmatched(WaitMeta(rank)))
      case Some(Cells(_)) => Err(Failed(WaitMeta(rank)))
      case Some(Meta(w, h, p)) =>
        var g := Create(w, h, p, fill);
        var len := DataLen(w, h);
        if DataStruct(rank) in faults || len < 0 then Err(Failed(DataStruct(rank)))
        else if PostData(rank) in faults then Err(Failed(PostData(rank)))
        else if WaitData(rank) in faults then Err(Failed(WaitData(rank)))
        else match Receive(sends, 0, rank, rank, 1)
          case None => Err(Unmatched(WaitData(rank)))
          case Some(Meta(_, _, _)) => Err(Failed(WaitData(rank)))
          case Some(Cells(c)) =>
            if |c| > len then Err(Failed(WaitData(rank)))
            else
              DataLenFits(g);
              Ok(g.(data := WritePrefix(g.data, len, c)))
  }

  /** Outcome of the distribution on every rank: rank 0's status and the tile
      (or failure) of every other rank. */
  datatype Distribution = Distribution(sender: Status, received: map<nat, Result<Grid>>)

  /** The whole distribution over n ranks: rank 0 posts its shipments with the
      routine as written, then every rank 1..n-1 receives. `fill` is what
      grid_create leaves in a new tile. */
  function Distribute(d: Dims, n: nat, cart: Cart, faults: map<nat, set<Call>>, fill: Cell): (out: Distribution)
    requires CartComplete(d, cart)
    ensures forall r :: r in out.received <==> 1 <= r < n
    ensures forall r :: 1 <= r < n ==>
              out.received[r] == ReceiveGrid(r, map[0 := SendGridsAsWritten(d, n, cart, FaultsOf(faults, 0)).sent],
                                             FaultsOf(faults, r), fill)
  {
    var posted := SendGridsAsWritten(d, n, cart, FaultsOf(faults, 0));
    var sends := map[0 := posted.sent];
    Distribution(posted.status,
                 map r: nat | 1 <= r < n :: ReceiveGrid(r, sends, FaultsOf(faults, r), fill))
  }

  /** Distribute/receive round trip: without failures, every rank r >= 1 ends with
      a tile of the extents and padding of the cart tile at its coordinates,
      whose first DataLen cells are that tile's first DataLen cells. */
  lemma DistributeRoundTrip(d: Dims, n: nat, cart: Cart, fill: Cell, r: nat)
    requires CartComplete(d, cart) && ShipsFrom(d, n, cart, 1)
    requires 1 <= r < n
    ensures var out := Distribute(d, n, cart, map[], fill);
            && out.sender == Done
            && r in out.received && out.received[r].Ok?
            && var g, t := out.received[r].value, TileOf(d, cart, r);
               && g.width == t.width && g.height == t.height && g.padding == t.padding
               && 0 <= DataLen(t.width, t.height) <= |g.data|
               && 0 <= DataLen(t.width, t.height) <= |t.data|
               && g.data[..DataLen(t.width, t.height)] == t.data[..DataLen(t.width, t.height)]
  {
    AsWrittenUnderShipsFrom(d, n, cart, {});
    var sends := map[0 := SendGrids(d, n, cart, {}).sent];
    ShipmentsChannel(d, cart, 1, n, r);
    var t := TileOf(d, cart, r);
    var ps := Payloads(t);
    assert Receive(sends, 0, r, r, 0) == Some(ps[0]);
    assert Receive(sends, 0, r, r, 1) == Some(ps[1]);
    assert Receivable(sends, r);
    var res := ReceiveGrid(r, sends, {}, fill);
    assert res.Ok?;
    DataLenFits(t);
    DataLenFits(res.value);
  }
}

=== FILE: exchange.dfy ===
/** Exchange of tile borders between neighbouring processes
    (tp3/source/heatsim-mpi.c, heatsim_exchange_borders).

    Every rank posts eight non-blocking transfers, one pair per border of
    border_t: it sends an edge of its interior to the neighbour on that side and
    receives, from the opposite neighbour, the matching edge into its ghost
    cells. The tag of both transfers of a pair is the border's enumerator. Then a
    single MPI_Waitall completes all eight.

    Orientation follows the code: y grows towards the north neighbour (dimension
    1, displacement +1) and x towards the east neighbour (dimension 0,
    displacement +1). So the northern send carries row height-1 and lands in the
    north neighbour's row -1. */
module Exchange {
  import opened Arith
  import opened Outcomes
  import opened Topology
  import opened Tiles
  import opened Messages

  /** border_t. */
  datatype Border = BorderNorth | BorderWest | BorderSouth | BorderEast {
    /** The enumerator's value, the tag of both transfers of this border. */
    function Tag(): nat {
      match this
      case BorderNorth => 0
      case BorderWest => 1
      case BorderSouth => 2
      case BorderEast => 3
    }
  }

  /** The borders in posting order: slot 2i sends and slot 2i+1 receives Borders[i]. */
  const Borders: seq<Border> := [BorderNorth, BorderWest, BorderSouth, BorderEast]

  // ---------------------------------------------------------------------
  // Strips: a row moved with the contiguous type, a column with the vector type

  datatype Strip = Row(y: int) | Column(x: int)

  /** The strip starts at a cell of the padded tile. */
  predicate StripIn(g: Grid, s: Strip) {
    match s
    case Row(y) => g.InPadded(0, y)
    case Column(x) => g.InPadded(x, 0)
  }

  /** Count of the strip's data type: `width` for the horizontal type, `height`
      for the vertical one. */
  function StripLength(g: Grid, s: Strip): nat {
    if s.Row? then g.width else g.height
  }

  /** Cell (x, y) is among the first n cells of strip s. */
  predicate OnStrip(s: Strip, n: nat, x: int, y: int) {
    match s
    case Row(sy) => y == sy && 0 <= x < n
    case Column(sx) => x == sx && 0 <= y < n
  }

  /** Position of cell (x, y) along strip s. */
  function StripPos(s: Strip, x: int, y: int): int {
    if s.Row? then x else y
  }

  /** What a send of strip s transmits: its cells in order. */
  function ReadStrip(g: Grid, s: Strip): (cells: seq<Cell>)
    requires g.Valid() && StripIn(g, s)
    ensures |cells| == StripLength(g, s)
    ensures forall x, y :: OnStrip(s, |cells|, x, y) ==>
              g.InPadded(x, y) && cells[StripPos(s, x, y)] == g.Get(x, y)
  {
    match s
    case Row(y) => ReadRow(g, y)
    case Column(x) => ReadColumn(g, x)
  }

  /** A receive into strip s of a message of |cells| <= count cells: the first
      |cells| cells of the strip take the message, every other cell keeps its value. */
  function WriteStrip(g: Grid, s: Strip, cells: seq<Cell>): (g': Grid)
    requires g.Valid() && StripIn(g, s) && |cells| <= StripLength(g, s)
    ensures g'.Valid()
    ensures g'.width == g.width && g'.height == g.height && g'.padding == g.padding
    ensures forall x, y :: g.InPadded(x, y) ==>
              g'.Get(x, y) == if OnStrip(s, |cells|, x, y) then cells[StripPos(s, x, y)] else g.Get(x, y)
  {
    match s
    case Row(y) => WriteRow(g, y, cells)
    case Column(x) => WriteColumn(g, x, cells)
  }

  /** The interior edge the send of border b reads. */
  function SendStrip(g: Grid, b: Border): Strip {
    match b
    case BorderNorth => Row(g.height - 1)
    case BorderWest => Column(0)
    case BorderSouth => Row(0)
    case BorderEast => Column(g.width - 1)
  }

  /** The ghost strip the receive of border b writes. */
  function RecvStrip(g: Grid, b: Border): Strip {
    match b
    case BorderNorth => Row(-1)
    case BorderWest => Column(g.width)
    case BorderSouth => Row(g.height)
    case BorderEast => Column(-1)
  }

  /** The peer the send of border b goes to. */
  function SendPeer(d: Dims, r: nat, b: Border): (p: nat)
    requires r < d.Size()
    ensures p < d.Size()
  {
    match b
    case BorderNorth => North(d, r)
    case BorderWest => West(d, r)
    case BorderSouth => South(d, r)
    case BorderEast => East(d, r)
  }

  /** The peer the receive of border b names as its source. */
  function RecvPeer(d: Dims, r: nat, b: Border): (p: nat)
    requires r < d.Size()
    ensures p < d.Size()
  {
    match b
    case BorderNorth => South(d, r)
    case BorderWest => East(d, r)
    case BorderSouth => North(d, r)
    case BorderEast => West(d, r)
  }

  /** Each receive names as source exactly the rank whose send of the same border
      is addressed to the receiver. */
  lemma PeersOpposite(d: Dims, r: nat, b: Border)
    requires r < d.Size()
    ensures RecvPeer(d, SendPeer(d, r, b), b) == r
    ensures SendPeer(d, RecvPeer(d, r, b), b) == r
  {
    OppositeNeighbours(d, r);
  }

  // ---------------------------------------------------------------------
  // One rank

  /** What the routine demands of its tile: the asserted one-cell padding, unsigned
      int extents, a non-empty tile (the sends start at cell (0, height - 1) and
      (width - 1, 0)), and a padded width that is a positive int stride. */
  predicate Ready(g: Grid) {
    && g.Valid() && g.padding == 1
    && 1 <= g.width && 1 <= g.height
    && g.height < TWO_32 && g.WidthPadded() < TWO_31
  }

  /** The calls of the routine on one rank, in order: the vector type and its
      commit, the contiguous type and its commit, the eight posts, the Waitall. */
  function ExchangeCalls(): seq<Call> {
    [BorderType(0), BorderType(1), BorderType(2), BorderType(3),
     PostBorder(0), PostBorder(1), PostBorder(2), PostBorder(3),
     PostBorder(4), PostBorder(5), PostBorder(6), PostBorder(7),
     WaitBorders]
  }

  /** The first of `calls` the runtime makes fail. */
  function FirstFailure(calls: seq<Call>, faults: set<Call>): (o: Option<Call>)
    ensures o.None? <==> forall i :: 0 <= i < |calls| ==> calls[i] !in faults
    ensures o.Some? ==>
              exists i :: 0 <= i < |calls| && calls[i] == o.value && o.value in faults
                          && forall j :: 0 <= j < i ==> calls[j] !in faults
  {
    if |calls| == 0 then None
    else if calls[0] in faults then Some(calls[0])
    else
      var o := FirstFailure(calls[1..], faults);
      if o.None? then None
      else
        var i :| 0 <= i < |calls| - 1 && calls[1..][i] == o.value && o.value in faults
                 && forall j :: 0 <= j < i ==> calls[1..][j] !in faults;
        assert calls[i + 1] == o.value;
        o
  }

  /** The failure a rank reports from its own calls, whatever its peers do. The
      vector type's count is the height read as an int, so a height of 2^31 or
      more makes MPI_Type_vector fail. */
  function LocalFailure(g: Grid, faults: set<Call>): (o: Option<Reason>)
    ensures o.None? <==> g.height < TWO_31 && forall c :: c in ExchangeCalls() ==> c !in faults
    ensures o.Some? ==> o.value.Failed? && o.value.call in ExchangeCalls()
  {
    if BorderType(0) in faults || g.height >= TWO_31 then Some(Failed(BorderType(0)))
    else match FirstFailure(ExchangeCalls()[1..], faults)
      case None => None
      case Some(c) => Some(Failed(c))
  }

  /** The send of border b from rank r. */
  function Outgoing(d: Dims, r: nat, g: Grid, b: Border): Message
    requires r < d.Size() && Ready(g)
  {
    Message(r, SendPeer(d, r, b), b.Tag(), Cells(ReadStrip(g, SendStrip(g, b))))
  }

  /** The four sends of a rank, in posting order. */
  function BorderSends(d: Dims, r: nat, g: Grid): (ms: seq<Message>)
    requires r < d.Size() && Ready(g)
    ensures |ms| == 4
    ensures forall i :: 0 <= i < 4 ==> ms[i] == Outgoing(d, r, g, Borders[i])
  {
    [Outgoing(d, r, g, BorderNorth), Outgoing(d, r, g, BorderWest),
     Outgoing(d, r, g, BorderSouth), Outgoing(d, r, g, BorderEast)]
  }

  /** Reference definition of a tile after its receives deposited cs[i] into the
      ghost strip of Borders[i], cell by cell. */
  function Deposited(g: Grid, cs: seq<seq<Cell>>, x: int, y: int): Cell
    requires g.Valid() && g.InPadded(x, y) && |cs| == 4
  {
    if y == -1 && 0 <= x < |cs[0]| then cs[0][x]
    else if x == g.width && 0 <= y < |cs[1]| then cs[1][y]
    else if y == g.height && 0 <= x < |cs[2]| then cs[2][x]
    else if x == -1 && 0 <= y < |cs[3]| then cs[3][y]
    else g.Get(x, y)
  }

  /** Each received message fits the count of the receive of its border. */
  predicate FitsStrips(g: Grid, cs: seq<seq<Cell>>) {
    |cs| == 4 && |cs[0]| <= g.width && |cs[1]| <= g.height && |cs[2]| <= g.width && |cs[3]| <= g.height
  }

  /** The four receives, performed in posting order. */
  function Deposit(g: Grid, cs: seq<seq<Cell>>): (g': Grid)
    requires Ready(g) && FitsStrips(g, cs)
    ensures g'.Valid()
    ensures g'.width == g.width && g'.height == g.height && g'.padding == g.padding
    ensures forall x, y :: g.InPadded(x, y) ==> g'.Get(x, y) == Deposited(g, cs, x, y)
  {
    var g1 := WriteStrip(g, Row(-1), cs[0]);
    var g2 := WriteStrip(g1, Column(g.width), cs[1]);
    var g3 := WriteStrip(g2, Row(g.height), cs[2]);
    var g4 := WriteStrip(g3, Column(-1), cs[3]);
    DepositCells(g, cs, g1, g2, g3, g4);
    g4
  }

  /** The four strip writes never overlap, so each cell ends with the value its
      own strip (if any) received. */
  lemma DepositCells(g: Grid, cs: seq<seq<Cell>>, g1: Grid, g2: Grid, g3: Grid, g4: Grid)
    requires Ready(g) && FitsStrips(g, cs)
    requires g1 == WriteStrip(g, Row(-1), cs[0])
    requires g2 == WriteStrip(g1, Column(g.width), cs[1])
    requires g3 == WriteStrip(g2, Row(g.height), cs[2])
    requires g4 == WriteStrip(g3, Column(-1), cs[3])
    ensures forall x, y :: g.InPadded(x, y) ==> g4.Get(x, y) == Deposited(g, cs, x, y)
  {
    forall x, y | g.InPadded(x, y) ensures g4.Get(x, y) == Deposited(g, cs, x, y) {
      DepositCell(g, cs, g1, g2, g3, g4, x, y);
    }
  }

  /** One cell of DepositCells. */
  lemma DepositCell(g: Grid, cs: seq<seq<Cell>>, g1: Grid, g2: Grid, g3: Grid, g4: Grid, x: int, y: int)
    requires Ready(g) && FitsStrips(g, cs) && g.InPadded(x, y)
    requires g1 == WriteStrip(g, Row(-1), cs[0])
    requires g2 == WriteStrip(g1, Column(g.width), cs[1])
    requires g3 == WriteStrip(g2, Row(g.height), cs[2])
    requires g4 == WriteStrip(g3, Column(-1), cs[3])
    ensures g4.Get(x, y) == Deposited(g, cs, x, y)
  {
    var v1 := if OnStrip(Row(-1), |cs[0]|, x, y) then cs[0][x] else g.Get(x, y);
    assert g1.Get(x, y) == v1;
    var v2 := if OnStrip(Column(g.width), |cs[1]|, x, y) then cs[1][y] else v1;
    assert g2.Get(x, y) == v2;
    var v3 := if OnStrip(Row(g.height), |cs[2]|, x, y) then cs[2][x] else v2;
    assert g3.Get(x, y) == v3;
    var v4 := if OnStrip(Column(-1), |cs[3]|, x, y) then cs[3][y] else v3;
    assert g4.Get(x, y) == v4;
    if y == -1 && 0 <= x < |cs[0]| {
      assert v4 == cs[0][x] == Deposited(g, cs, x, y);
    } else if x == g.width && 0 <= y < |cs[1]| {
      assert v4 == cs[1][y] == Deposited(g, cs, x, y);
    } else if y == g.height && 0 <= x < |cs[2]| {
      assert v4 == cs[2][x] == Deposited(g, cs, x, y);
    } else if x == -1 && 0 <= y < |cs[3]| {
      assert v4 == cs[3][y] == Deposited(g, cs, x, y);
    } else {
      assert v4 == g.Get(x, y) == Deposited(g, cs, x, y);
    }
  }

  /** What the receive of border b on rank r gets. */
  function Incoming(d: Dims, r: nat, sends: map<nat, seq<Message>>, b: Border): Option<Payload>
    requires r < d.Size()
  {
    Receive(sends, RecvPeer(d, r, b), r, b.Tag(), 0)
  }

  /** A message arrived, carries cells, and is no longer than the receive. */
  predicate Fitting(p: Option<Payload>, count: nat) {
    p.Some? && p.value.Cells? && |p.value.cells| <= count
  }

  /** Every receive of rank r is matched by a message that fits it. */
  predicate AllFit(d: Dims, r: nat, g: Grid, sends: map<nat, seq<Message>>)
    requires r < d.Size()
  {
    forall i :: 0 <= i < 4 ==> Fitting(Incoming(d, r, sends, Borders[i]), StripLength(g, RecvStrip(g, Borders[i])))
  }

  /** Some receive of rank r is not matched by any send. */
  predicate SomeUnmatched(d: Dims, r: nat, sends: map<nat, seq<Message>>)
    requires r < d.Size()
  {
    exists i :: 0 <= i < 4 && Incoming(d, r, sends, Borders[i]).None?
  }

  /** The cells each receive of rank r got, in border order. */
  function Arrivals(d: Dims, r: nat, sends: map<nat, seq<Message>>): (cs: seq<seq<Cell>>)
    requires r < d.Size()
    requires forall i :: 0 <= i < 4 ==> Incoming(d, r, sends, Borders[i]).Some? && Incoming(d, r, sends, Borders[i]).value.Cells?
    ensures |cs| == 4
    ensures forall i :: 0 <= i < 4 ==> cs[i] == Incoming(d, r, sends, Borders[i]).value.cells
  {
    seq(4, i requires 0 <= i < 4 => Incoming(d, r, sends, Borders[i]).value.cells)
  }

  /** MPI_Waitall on rank r, its posts all made: it never returns while a receive
      is unmatched, reports an error when a message is longer than its receive
      (or is not cells), and otherwise leaves every message in its ghost strip. */
  function Complete(d: Dims, r: nat, g: Grid, sends: map<nat, seq<Message>>): (res: Result<Grid>)
    requires r < d.Size() && Ready(g)
    ensures res.Ok? <==> AllFit(d, r, g, sends)
    ensures res.Err? ==> res.reason == if SomeUnmatched(d, r, sends) then Unmatched(WaitBorders) else Failed(WaitBorders)
    ensures res.Ok? ==>
              && res.value.Valid()
              && res.value.width == g.width && res.value.height == g.height && res.value.padding == 1
              && forall x, y :: g.InPadded(x, y) ==> res.value.Get(x, y) == Deposited(g, Arrivals(d, r, sends), x, y)
    ensures res.Ok? ==> FitsStrips(g, Arrivals(d, r, sends)) && res.value == Deposit(g, Arrivals(d, r, sends))
  {
    if SomeUnmatched(d, r, sends) then Err(Unmatched(WaitBorders))
    else if !AllFit(d, r, g, sends) then Err(Failed(WaitBorders))
    else
      var cs := Arrivals(d, r, sends);
      assert FitsStrips(g, cs) by {
        assert Fitting(Incoming(d, r, sends, Borders[0]), StripLength(g, RecvStrip(g, Borders[0])));
        assert Fitting(Incoming(d, r, sends, Borders[1]), StripLength(g, RecvStrip(g, Borders[1])));
        assert Fitting(Incoming(d, r, sends, Borders[2]), StripLength(g, RecvStrip(g, Borders[2])));
        assert Fitting(Incoming(d, r, sends, Borders[3]), StripLength(g, RecvStrip(g, Borders[3])));
      }
      Ok(Deposit(g, cs))
  }

  // ---------------------------------------------------------------------
  // All ranks

  /** Every rank of the grid holds a tile the routine accepts. */
  ghost predicate AllReady(d: Dims, grids: map<nat, Grid>) {
    && (forall r: nat :: r in grids <==> r < d.Size())
    && forall r :: r in grids ==> Ready(grids[r])
  }

  /** The sends each rank delivers: all four when its own calls succeed, none
      otherwise (a send counts once its post and the Waitall that completes it
      succeed; a Waitall that blocks on a receive still completes its sends). */
  function Posted(d: Dims, grids: map<nat, Grid>, faults: map<nat, set<Call>>): (sends: map<nat, seq<Message>>)
    requires AllReady(d, grids)
    ensures forall r :: r in sends <==> r in grids
  {
    map r | r in grids ::
      if LocalFailure(grids[r], FaultsOf(faults, r)).None? then BorderSends(d, r, grids[r]) else []
  }

  /** heatsim_exchange_borders on rank r, its peers running it at the same time:
      the rank's own failure if one of its calls fails, otherwise the outcome of
      its Waitall against what the other ranks delivered. */
  function ExchangeRank(d: Dims, grids: map<nat, Grid>, faults: map<nat, set<Call>>, r: nat): (res: Result<Grid>)
    requires AllReady(d, grids) && r < d.Size()
    ensures LocalFailure(grids[r], FaultsOf(faults, r)).Some? ==> res == Err(LocalFailure(grids[r], FaultsOf(faults, r)).value)
    ensures res.Ok? ==> res.value.Valid() && res.value.width == grids[r].width && res.value.height == grids[r].height
  {
    match LocalFailure(grids[r], FaultsOf(faults, r))
    case Some(e) => Err(e)
    case None => Complete(d, r, grids[r], Posted(d, grids, faults))
  }

  /** heatsim_exchange_borders on every rank at once. */
  function ExchangeAll(d: Dims, grids: map<nat, Grid>, faults: map<nat, set<Call>>): (out: map<nat, Result<Grid>>)
    requires AllReady(d, grids)
    ensures forall r: nat :: r in out <==> r < d.Size()
    ensures forall r :: r in out ==> out[r] == ExchangeRank(d, grids, faults, r)
  {
    map r: nat | r < d.Size() :: ExchangeRank(d, grids, faults, r)
  }

  // ---------------------------------------------------------------------
  // Matching

  /** A rank's four sends use four distinct tags: the channel to `dst` with border
      b's tag holds b's strip if b's send goes to `dst`, and nothing otherwise. */
  lemma BorderChannel(d: Dims, s: nat, g: Grid, dst: nat, b: Border)
    requires s < d.Size() && Ready(g)
    ensures Channel(BorderSends(d, s, g), dst, b.Tag())
            == if SendPeer(d, s, b) == dst then [Cells(ReadStrip(g, SendStrip(g, b)))] else []
  {
    var ms := BorderSends(d, s, g);
    var i := b.Tag();
    assert Borders[i] == b;
    if SendPeer(d, s, b) == dst {
      ChannelUnique(ms, i, dst, i);
    } else {
      ChannelEmpty(ms, dst, i);
    }
  }

  /** The receive of border b on rank r gets the matching edge of the peer it
      names, which is the peer's only message on that channel; it gets nothing
      when that peer's own calls fail. */
  lemma IncomingStrip(d: Dims, grids: map<nat, Grid>, faults: map<nat, set<Call>>, r: nat, b: Border)
    requires AllReady(d, grids) && r < d.Size()
    ensures var p, sends := RecvPeer(d, r, b), Posted(d, grids, faults);
            && p in grids
            && Incoming(d, r, sends, b)
               == (if LocalFailure(grids[p], FaultsOf(faults, p)).None?
                   then Some(Cells(ReadStrip(grids[p], SendStrip(grids[p], b))))
                   else None)
            && |Channel(sends[p], r, b.Tag())| <= 1
  {
    var p, sends := RecvPeer(d, r, b), Posted(d, grids, faults);
    assert p in grids;
    PeersOpposite(d, r, b);
    if LocalFailure(grids[p], FaultsOf(faults, p)).None? {
      assert sends[p] == BorderSends(d, p, grids[p]);
      BorderChannel(d, p, grids[p], r, b);
    } else {
      assert sends[p] == [];
    }
  }

  /** Every message a rank sends is taken by exactly one receive: the receive of
      the same border on its destination names the sender, and the message is
      alone on its channel. */
  lemma SendsReceived(d: Dims, grids: map<nat, Grid>, faults: map<nat, set<Call>>, s: nat, i: nat)
    requires AllReady(d, grids) && s < d.Size() && i < 4
    requires LocalFailure(grids[s], FaultsOf(faults, s)).None?
    ensures var sends := Posted(d, grids, faults);
            var m := sends[s][i];
            && m.src == s && m.tag == Borders[i].Tag()
            && RecvPeer(d, m.dst, Borders[i]) == s
            && Channel(sends[s], m.dst, m.tag) == [m.payload]
            && Incoming(d, m.dst, sends, Borders[i]) == Some(m.payload)
  {
    var b := Borders[i];
    PeersOpposite(d, s, b);
    BorderChannel(d, s, grids[s], SendPeer(d, s, b), b);
  }

  // ---------------------------------------------------------------------
  // Outcome of the exchange

  /** Neighbours along y share a width and neighbours along x a height, so every
      edge fills the ghost strip it lands in exactly. */
  ghost predicate Compatible(d: Dims, grids: map<nat, Grid>)
    requires AllReady(d, grids)
  {
    forall r :: r in grids ==> CompatibleAt(d, grids, r)
  }

  /** Rank r shares its width with its north neighbour and its height with its
      east neighbour. */
  ghost predicate CompatibleAt(d: Dims, grids: map<nat, Grid>, r: nat)
    requires AllReady(d, grids) && r in grids
  {
    && grids[North(d, r)].width == grids[r].width
    && grids[East(d, r)].height == grids[r].height
  }

  /** The ghost ring of a tile without its corners: what the four receives cover. */
  predicate GhostEdge(g: Grid, x: int, y: int) {
    || ((y == -1 || y == g.height as int) && 0 <= x < g.width)
    || ((x == -1 || x == g.width as int) && 0 <= y < g.height)
  }

  /** The edge the peer named by the receive of border b on rank r sends. */
  function EdgeOf(d: Dims, grids: map<nat, Grid>, r: nat, b: Border): seq<Cell>
    requires AllReady(d, grids) && r < d.Size()
  {
    var p := RecvPeer(d, r, b);
    ReadStrip(grids[p], SendStrip(grids[p], b))
  }

  /** With compatible tiles, the edge arriving for each border has exactly the
      length of the ghost strip it lands in. */
  lemma EdgeLength(d: Dims, grids: map<nat, Grid>, r: nat, b: Border)
    requires AllReady(d, grids) && Compatible(d, grids) && r < d.Size()
    ensures |EdgeOf(d, grids, r, b)| == StripLength(grids[r], RecvStrip(grids[r], b))
  {
    OppositeNeighbours(d, r);
    var p := RecvPeer(d, r, b);
    assert p in grids;
    match b
    case BorderNorth => assert CompatibleAt(d, grids, p);
    case BorderWest => assert CompatibleAt(d, grids, r);
    case BorderSouth => assert CompatibleAt(d, grids, r);
    case BorderEast => assert CompatibleAt(d, grids, p);
  }

  /** Without failures, every receive of rank r gets the whole edge of the peer
      it names. */
  lemma NoFaultArrivals(d: Dims, grids: map<nat, Grid>, r: nat)
    requires AllReady(d, grids)
    requires forall k :: k in grids ==> grids[k].height < TWO_31
    requires r < d.Size()
    ensures LocalFailure(grids[r], FaultsOf(map[], r)).None?
    ensures forall i :: 0 <= i < 4 ==>
              Incoming(d, r, Posted(d, grids, map[]), Borders[i]) == Some(Cells(EdgeOf(d, grids, r, Borders[i])))
  {
    forall i | 0 <= i < 4
      ensures Incoming(d, r, Posted(d, grids, map[]), Borders[i]) == Some(Cells(EdgeOf(d, grids, r, Borders[i])))
    {
      var p := RecvPeer(d, r, Borders[i]);
      assert LocalFailure(grids[p], FaultsOf(map[], p)).None?;
      IncomingStrip(d, grids, map[], r, Borders[i]);
    }
  }

  /** Without failures and with compatible tiles, rank r completes, and what its
      receives got are the facing edges of its neighbours, each as long as the
      ghost strip it lands in. */
  lemma ExchangeArrivals(d: Dims, grids: map<nat, Grid>, r: nat)
    requires AllReady(d, grids) && Compatible(d, grids)
    requires forall k :: k in grids ==> grids[k].height < TWO_31
    requires r < d.Size()
    ensures var sends := Posted(d, grids, map[]);
            && ExchangeRank(d, grids, map[], r) == Complete(d, r, grids[r], sends)
            && ExchangeRank(d, grids, map[], r).Ok?
            && forall i :: 0 <= i < 4 ==> Arrivals(d, r, sends)[i] == EdgeOf(d, grids, r, Borders[i])
  {
    var sends := Posted(d, grids, map[]);
    var g := grids[r];
    NoFaultArrivals(d, grids, r);
    forall i | 0 <= i < 4
      ensures Fitting(Incoming(d, r, sends, Borders[i]), StripLength(g, RecvStrip(g, Borders[i])))
    {
      EdgeLength(d, grids, r, Borders[i]);
    }
  }

  /** The four tiles around a rank. */
  datatype Around = Around(north: Grid, west: Grid, south: Grid, east: Grid)

  function AroundOf(d: Dims, grids: map<nat, Grid>, r: nat): (a: Around)
    requires AllReady(d, grids) && r < d.Size()
    ensures Ready(a.north) && Ready(a.west) && Ready(a.south) && Ready(a.east)
  {
    Around(grids[North(d, r)], grids[West(d, r)], grids[South(d, r)], grids[East(d, r)])
  }

  /** g and the tiles around it are ready, and its ghost strips are exactly as
      long as the edges facing them. */
  ghost predicate Surrounded(g: Grid, a: Around) {
    && Ready(g) && Ready(a.north) && Ready(a.west) && Ready(a.south) && Ready(a.east)
    && a.south.width == g.width && a.north.width == g.width
    && a.east.height == g.height && a.west.height == g.height
  }

  /** cs are the facing edges of the tiles around g, in border order: the top row
      of the south tile, the first column of the east one, the bottom row of the
      north one, the last column of the west one. */
  ghost predicate Facing(g: Grid, a: Around, cs: seq<seq<Cell>>) {
    && Surrounded(g, a) && |cs| == 4
    && cs[0] == ReadStrip(a.south, Row(a.south.height - 1))
    && cs[1] == ReadStrip(a.east, Column(0))
    && cs[2] == ReadStrip(a.north, Row(0))
    && cs[3] == ReadStrip(a.west, Column(a.west.width - 1))
  }

  /** g' is g after the exchange: its ghost rows hold the adjacent rows of the
      south and north tiles, its ghost columns the adjacent columns of the east
      and west tiles, and every other cell, interior or corner, is g's. */
  ghost predicate HoldsEdges(g: Grid, g': Grid, a: Around) {
    && Surrounded(g, a)
    && g'.Valid() && g'.width == g.width && g'.height == g.height && g'.padding == 1
    && (forall x :: 0 <= x < g.width ==> g'.Get(x, -1) == a.south.Get(x, a.south.height - 1))
    && (forall y :: 0 <= y < g.height ==> g'.Get(g.width, y) == a.east.Get(0, y))
    && (forall x :: 0 <= x < g.width ==> g'.Get(x, g.height) == a.north.Get(x, 0))
    && (forall y :: 0 <= y < g.height ==> g'.Get(-1, y) == a.west.Get(a.west.width - 1, y))
    && (forall x, y :: g.InPadded(x, y) && !GhostEdge(g, x, y) ==> g'.Get(x, y) == g.Get(x, y))
  }

  /** Without failures and with compatible tiles, every rank completes; its ghost
      rows hold the adjacent rows of its south and north neighbours, its ghost
      columns the adjacent columns of its west and east neighbours, and every
      other cell (interior and the four corners) is unchanged. */
  lemma ExchangeGhostCells(d: Dims, grids: map<nat, Grid>, r: nat)
    requires AllReady(d, grids) && Compatible(d, grids)
    requires forall k :: k in grids ==> grids[k].height < TWO_31
    requires r < d.Size()
    ensures ExchangeRank(d, grids, map[], r).Ok?
    ensures HoldsEdges(grids[r], ExchangeRank(d, grids, map[], r).value, AroundOf(d, grids, r))
  {
    var sends := Posted(d, grids, map[]);
    ExchangeArrivals(d, grids, r);
    var cs := Arrivals(d, r, sends);
    TileEdges(d, grids, r, cs);
    DepositedEdges(grids[r], AroundOf(d, grids, r), cs);
  }

  /** One exchange step on the whole grid: without failures and with compatible
      tiles, every rank completes and holds its neighbours' facing edges in its
      ghost ring, with its interior unchanged. */
  lemma ExchangeEverywhere(d: Dims, grids: map<nat, Grid>)
    requires AllReady(d, grids) && Compatible(d, grids)
    requires forall k :: k in grids ==> grids[k].height < TWO_31
    ensures var out := ExchangeAll(d, grids, map[]);
            forall r :: r in out ==>
              r in grids && out[r].Ok? && HoldsEdges(grids[r], out[r].value, AroundOf(d, grids, r))
  {
    var out := ExchangeAll(d, grids, map[]);
    forall r | r in out
      ensures r in grids && out[r].Ok? && HoldsEdges(grids[r], out[r].value, AroundOf(d, grids, r))
    {
      ExchangeGhostCells(d, grids, r);
    }
  }

  /** The edges received for the four borders, with compatible tiles, are the
      facing edges of the tiles around the rank. */
  lemma TileEdges(d: Dims, grids: map<nat, Grid>, r: nat, cs: seq<seq<Cell>>)
    requires AllReady(d, grids) && Compatible(d, grids) && r < d.Size()
    requires |cs| == 4 && forall i :: 0 <= i < 4 ==> cs[i] == EdgeOf(d, grids, r, Borders[i])
    ensures Facing(grids[r], AroundOf(d, grids, r), cs)
  {
    assert cs[0] == EdgeOf(d, grids, r, Borders[0]);
    assert cs[1] == EdgeOf(d, grids, r, Borders[1]);
    assert cs[2] == EdgeOf(d, grids, r, Borders[2]);
    assert cs[3] == EdgeOf(d, grids, r, Borders[3]);
    EdgeLength(d, grids, r, BorderNorth);
    EdgeLength(d, grids, r, BorderWest);
    EdgeLength(d, grids, r, BorderSouth);
    EdgeLength(d, grids, r, BorderEast);
  }

  /** A tile whose receives deposited the facing edges of the tiles around it
      holds those edges in its ghost ring and its own cells everywhere else. */
  lemma DepositedEdges(g: Grid, a: Around, cs: seq<seq<Cell>>)
    requires Facing(g, a, cs)
    ensures FitsStrips(g, cs)
    ensures HoldsEdges(g, Deposit(g, cs), a)
  {
    var g' := Deposit(g, cs);
    forall x | 0 <= x < g.width ensures g'.Get(x, -1) == a.south.Get(x, a.south.height - 1) {
      assert OnStrip(Row(a.south.height - 1), |cs[0]|, x, a.south.height - 1);
      assert g'.Get(x, -1) == Deposited(g, cs, x, -1);
    }
    forall y | 0 <= y < g.height ensures g'.Get(g.width, y) == a.east.Get(0, y) {
      assert OnStrip(Column(0), |cs[1]|, 0, y);
      assert g'.Get(g.width, y) == Deposited(g, cs, g.width, y);
    }
    forall x | 0 <= x < g.width ensures g'.Get(x, g.height) == a.north.Get(x, 0) {
      assert OnStrip(Row(0), |cs[2]|, x, 0);
      assert g'.Get(x, g.height) == Deposited(g, cs, x, g.height);
    }
    forall y | 0 <= y < g.height ensures g'.Get(-1, y) == a.west.Get(a.west.width - 1, y) {
      assert OnStrip(Column(a.west.width - 1), |cs[3]|, a.west.width - 1, y);
      assert g'.Get(-1, y) == Deposited(g, cs, -1, y);
    }
    forall x, y | g.InPadded(x, y) && !GhostEdge(g, x, y) ensures g'.Get(x, y) == g.Get(x, y) {
      assert g'.Get(x, y) == Deposited(g, cs, x, y);
    }
  }

  /** The model drops every send of a neighbour whose own calls fail (the code
      may already have posted some of them when a later call fails), so the
      Waitall of a rank whose own calls succeed blocks forever on that
      neighbour's receive. */
  lemma PeerFailureBlocks(d: Dims, grids: map<nat, Grid>, faults: map<nat, set<Call>>, r: nat, b: Border)
    requires AllReady(d, grids) && r < d.Size()
    requires LocalFailure(grids[r], FaultsOf(faults, r)).None?
    requires LocalFailure(grids[RecvPeer(d, r, b)], FaultsOf(faults, RecvPeer(d, r, b))).Some?
    ensures ExchangeRank(d, grids, faults, r) == Err(Unmatched(WaitBorders))
  {
    IncomingStrip(d, grids, faults, r, b);
    assert Borders[b.Tag()] == b;
    assert SomeUnmatched(d, r, Posted(d, grids, faults));
  }

  /** A rank completes only if its own calls and those of the four neighbours it
      receives from all succeed, and then it got each neighbour's facing edge. */
  lemma OkNeedsNeighbours(d: Dims, grids: map<nat, Grid>, faults: map<nat, set<Call>>, r: nat)
    requires AllReady(d, grids) && r < d.Size()
    requires ExchangeRank(d, grids, faults, r).Ok?
    ensures LocalFailure(grids[r], FaultsOf(faults, r)).None?
    ensures forall i :: 0 <= i < 4 ==>
              && LocalFailure(grids[RecvPeer(d, r, Borders[i])], FaultsOf(faults, RecvPeer(d, r, Borders[i]))).None?
              && Incoming(d, r, Posted(d, grids, faults), Borders[i]) == Some(Cells(EdgeOf(d, grids, r, Borders[i])))
  {
    forall i | 0 <= i < 4
      ensures LocalFailure(grids[RecvPeer(d, r, Borders[i])], FaultsOf(faults, RecvPeer(d, r, Borders[i]))).None?
      ensures Incoming(d, r, Posted(d, grids, faults), Borders[i]) == Some(Cells(EdgeOf(d, grids, r, Borders[i])))
    {
      IncomingStrip(d, grids, faults, r, Borders[i]);
    }
  }

  /** Without failures, an edge longer than the ghost strip it lands in (a
      neighbour wider or taller than the receiver) makes the Waitall report a
      truncation error. */
  lemma ExchangeTruncates(d: Dims, grids: map<nat, Grid>, r: nat, b: Border)
    requires AllReady(d, grids) && r < d.Size()
    requires forall k :: k in grids ==> grids[k].height < TWO_31
    requires |EdgeOf(d, grids, r, b)| > StripLength(grids[r], RecvStrip(grids[r], b))
    ensures ExchangeRank(d, grids, map[], r) == Err(Failed(WaitBorders))
  {
    var sends := Posted(d, grids, map[]);
    NoFaultArrivals(d, grids, r);
    assert Borders[b.Tag()] == b;
    assert !SomeUnmatched(d, r, sends);
    assert !AllFit(d, r, grids[r], sends);
  }

  /** A tiling that gives every rank of the grid a w x h tile filled with a value
      of its own. */
  function UniformTiles(d: Dims, w: nat, h: nat, fill: nat -> Cell): (grids: map<nat, Grid>)
    ensures forall r: nat :: r in grids <==> r < d.Size()
  {
    map r: nat | r < d.Size() :: Create(w, h, 1, fill(r))
  }

  /** Tiles of one size, non-empty and within the int range, meet every
      precondition of the whole-grid lemmas above, on any grid. */
  lemma UniformMeets(d: Dims, w: nat, h: nat, fill: nat -> Cell)
    requires 1 <= w && w + 2 < TWO_31 && 1 <= h < TWO_31
    ensures AllReady(d, UniformTiles(d, w, h, fill)) && Compatible(d, UniformTiles(d, w, h, fill))
    ensures forall k :: k in UniformTiles(d, w, h, fill) ==> UniformTiles(d, w, h, fill)[k].height < TWO_31
  {
    var grids := UniformTiles(d, w, h, fill);
    forall r | r in grids ensures Ready(grids[r]) && grids[r].width == w && grids[r].height == h {
      assert grids[r] == Create(w, h, 1, fill(r));
    }
    assert AllReady(d, grids);
    forall r | r in grids ensures CompatibleAt(d, grids, r) {
      assert North(d, r) in grids && East(d, r) in grids;
    }
  }

  /** A tile holding v whose ghost ring was filled from tiles holding vn, vw, vs
      and ve holds those values on the matching ghost strips and v inside. */
  lemma HoldsFills(w: nat, h: nat, g': Grid, v: Cell, vn: Cell, vw: Cell, vs: Cell, ve: Cell)
    requires HoldsEdges(Create(w, h, 1, v), g',
               Around(Create(w, h, 1, vn), Create(w, h, 1, vw), Create(w, h, 1, vs), Create(w, h, 1, ve)))
    ensures g'.Valid() && g'.width == w && g'.height == h && g'.padding == 1
    ensures forall x :: 0 <= x < w ==> g'.Get(x, -1) == vs && g'.Get(x, h) == vn
    ensures forall y :: 0 <= y < h ==> g'.Get(-1, y) == vw && g'.Get(w, y) == ve
    ensures forall x, y :: 0 <= x < w && 0 <= y < h ==> g'.Get(x, y) == v
  {
    var g := Create(w, h, 1, v);
    forall x, y | 0 <= x < w && 0 <= y < h ensures g'.Get(x, y) == v {
      assert g.InPadded(x, y) && !GhostEdge(g, x, y);
    }
  }

  /** On a uniform tiling and without failures, every rank completes; its ghost
      rows hold the fill of its south and north neighbours, its ghost columns the
      fill of its west and east neighbours, and its interior its own fill. */
  lemma UniformExchange(d: Dims, w: nat, h: nat, fill: nat -> Cell, r: nat)
    requires 1 <= w && w + 2 < TWO_31 && 1 <= h < TWO_31 && r < d.Size()
    ensures AllReady(d, UniformTiles(d, w, h, fill))
    ensures var res := ExchangeRank(d, UniformTiles(d, w, h, fill), map[], r);
            && res.Ok? && res.value.width == w && res.value.height == h
            && (forall x :: 0 <= x < w ==> res.value.Get(x, -1) == fill(South(d, r)) && res.value.Get(x, h) == fill(North(d, r)))
            && (forall y :: 0 <= y < h ==> res.value.Get(-1, y) == fill(West(d, r)) && res.value.Get(w, y) == fill(East(d, r)))
            && (forall x, y :: 0 <= x < w && 0 <= y < h ==> res.value.Get(x, y) == fill(r))
  {
    var grids := UniformTiles(d, w, h, fill);
    UniformMeets(d, w, h, fill);
    ExchangeGhostCells(d, grids, r);
    var res := ExchangeRank(d, grids, map[], r);
    assert AroundOf(d, grids, r) ==
      Around(Create(w, h, 1, fill(North(d, r))), Create(w, h, 1, fill(West(d, r))),
             Create(w, h, 1, fill(South(d, r))), Create(w, h, 1, fill(East(d, r))));
    assert grids[r] == Create(w, h, 1, fill(r));
    HoldsFills(w, h, res.value, fill(r), fill(North(d, r)), fill(West(d, r)), fill(South(d, r)), fill(East(d, r)));
  }

  /** On a 2x1 grid each rank's west and east neighbours are the other rank, and
      its south and north neighbours are itself. */
  lemma TwoRankNeighbours(r: nat)
    requires r < 2
    ensures West(Dims(2, 1), r) == 1 - r && East(Dims(2, 1), r) == 1 - r
    ensures South(Dims(2, 1), r) == r && North(Dims(2, 1), r) == r
  {
    NarrowDimensions(Dims(2, 1), r);
  }

  /** Rank 0 holds 0 and every other rank 1. */
  function ZeroOne(r: nat): Cell {
    if r == 0 then 0 else 1
  }

  /** Two 1x1 tiles side by side on a 2x1 grid, holding 0 and 1: rank 0 completes
      with rank 1's cell in both ghost columns and its own cell in both ghost
      rows. */
  lemma TwoTileExchange()
    ensures 0 in UniformTiles(Dims(2, 1), 1, 1, ZeroOne) && 1 in UniformTiles(Dims(2, 1), 1, 1, ZeroOne)
    ensures AllReady(Dims(2, 1), UniformTiles(Dims(2, 1), 1, 1, ZeroOne))
    ensures var res := ExchangeRank(Dims(2, 1), UniformTiles(Dims(2, 1), 1, 1, ZeroOne), map[], 0);
            && res.Ok? && res.value.width == 1 && res.value.height == 1
            && res.value.Get(-1, 0) == 1 && res.value.Get(1, 0) == 1
            && res.value.Get(0, -1) == 0 && res.value.Get(0, 1) == 0
  {
    var grids := UniformTiles(Dims(2, 1), 1, 1, ZeroOne);
    UniformExchange(Dims(2, 1), 1, 1, ZeroOne, 0);
    TwoRankNeighbours(0);
  }

  /** A failing Waitall is a failure of the rank's own calls. */
  lemma WaitFailureIsLocal(g: Grid)
    ensures LocalFailure(g, {WaitBorders}).Some?
  {
    assert ExchangeCalls()[12] == WaitBorders;
  }

  /** On a uniform tiling, a failing Waitall on a neighbour another rank receives
      from makes the model drop the neighbour's sends, so that rank blocks on its
      receive. On a 2x1 grid rank 0's west receive names rank 1, for instance. */
  lemma UniformBlocked(d: Dims, w: nat, h: nat, fill: nat -> Cell, r: nat, b: Border)
    requires 1 <= w && w + 2 < TWO_31 && 1 <= h < TWO_31 && r < d.Size()
    requires RecvPeer(d, r, b) != r
    ensures ExchangeRank(d, UniformTiles(d, w, h, fill), map[RecvPeer(d, r, b) := {WaitBorders}], r)
              == Err(Unmatched(WaitBorders))
  {
    var grids, faults := UniformTiles(d, w, h, fill), map[RecvPeer(d, r, b) := {WaitBorders}];
    UniformMeets(d, w, h, fill);
    assert FaultsOf(faults, r) == {};
    WaitFailureIsLocal(grids[RecvPeer(d, r, b)]);
    PeerFailureBlocks(d, grids, faults, r, b);
  }
}

=== FILE: kernel_matcher.dfy ===
/** The kernel-signature check of the OpenCL exercise: a Clang AST callback
    records the kind of every parameter of `sinoscope_kernel`, then checks that
    sequence of kinds against the parameter-passing variant the exercise
    requires. Type predicates of the Clang AST are inputs of the model. */
module KernelMatcher {
  import opened Outcomes

  /** The kind the callback records for one kernel parameter. */
  datatype ArgType = Pointer | Floating | Integral | Aggregate

  /** The parameter-passing variants, in the order of the `switch` that checks
      them. */
  datatype OclParam =
    | IntStructFloatStruct
    | OneByOne
    | Struct
    | IntStructFloatOneByOne
    | FloatStructIntOneByOne

  /** The callback's state: whether the kernel declaration was matched, and the
      kinds recorded so far, one per parameter in declaration order. */
  datatype KernelCallback = KernelCallback(hasMatched: bool, args: seq<ArgType>)

  /** Pass, or the message of the exception the check throws. */
  datatype Verdict = Pass | Fail(message: string)

  /** What checking a variant produces: whether the diagnostic about the first
      parameter was printed, and the verdict. */
  datatype Report = Report(warned: bool, verdict: Verdict)

  /** What the Clang type predicates answer for one parameter's original type. */
  datatype Traits = Traits(isFloating: bool, isIntegral: bool, isAggregate: bool, isPointer: bool)

  const AssertPrefix := "OpenCL : Failed assertion, "
  const CompilationFailed := "Compilation failed"
  const UnhandledType := "Unhandled type"

  const ThreeArguments := "3 arguments attendus"
  const TwoStructs := "deux structures attendues"

  /** The message of each check the fall-through cases run, in source order. */
  function Message(k: nat): (m: string)
    requires k < 4
  {
    if k == 0 then "tous les arguments doivent être passés un à un"
    else if k == 1 then "tous les arguments doivent être passés dans une struct"
    else if k == 2 then "les entiers doivent être passés en struct et les flottants un par un"
    else "les flottants doivent être passés en struct et les entiers un par un"
  }

  /** The assertion helper: a failed condition throws with the common prefix. */
  function AssertB(cond: bool, mess: string): (v: Verdict)
    ensures v.Pass? <==> cond
    ensures v.Fail? ==> |v.message| == |AssertPrefix| + |mess|
    ensures v.Fail? ==> v.message[..|AssertPrefix|] == AssertPrefix && v.message[|AssertPrefix|..] == mess
  {
    if cond then Pass else Fail(AssertPrefix + mess)
  }

  /** Every kind from position `from` on is one of `kinds`. */
  predicate AllFrom(args: seq<ArgType>, from: nat, kinds: set<ArgType>)
  {
    forall i :: from <= i < |args| ==> args[i] in kinds
  }

  /** The condition of the k-th check of the fall-through cases. */
  predicate Check(k: nat, args: seq<ArgType>)
    requires k < 4 && |args| >= 2
  {
    if k == 0 then AllFrom(args, 1, {Floating, Integral})
    else if k == 1 then args[1] == Aggregate
    else if k == 2 then AllFrom(args, 2, {Integral}) && args[1] == Aggregate
    else AllFrom(args, 2, {Floating}) && args[1] == Aggregate
  }

  /** The case label a variant enters among the fall-through cases. */
  function Entry(v: OclParam): (k: nat)
    requires v != IntStructFloatStruct
    ensures k < 4
  {
    match v
    case OneByOne => 0
    case Struct => 1
    case IntStructFloatOneByOne => 2
    case FloatStructIntOneByOne => 3
  }

  /** The first check, from label k to the end of the `switch`, whose
      condition fails; None when all of them hold. */
  function FirstFailing(k: nat, args: seq<ArgType>): (f: Option<nat>)
    requires |args| >= 2
    ensures f.Some? ==> k <= f.value < 4 && !Check(f.value, args)
    decreases 4 - k
  {
    if k >= 4 then None
    else if !Check(k, args) then Some(k)
    else FirstFailing(k + 1, args)
  }

  /** Running the checks from label k to the end of the `switch`, as the cases
      without `break` do: the first failing check throws. */
  function FallFrom(k: nat, args: seq<ArgType>): (v: Verdict)
    requires |args| >= 2
  {
    match FirstFailing(k, args)
    case None => Pass
    case Some(j) => AssertB(false, Message(j))
  }

  /** The `switch` on the required variant, as written. */
  function Switch(v: OclParam, args: seq<ArgType>): (r: Verdict)
    requires v != IntStructFloatStruct ==> |args| >= 2
  {
    if v == IntStructFloatStruct then
      if |args| != 3 then AssertB(false, ThreeArguments)
      else AssertB(args[1] == Aggregate && args[2] == Aggregate, TwoStructs)
    else FallFrom(Entry(v), args)
  }

  /** What `args.front()` and the `args[1]` of the later cases demand of a
      matched callback. */
  predicate Checkable(cb: KernelCallback, v: OclParam)
  {
    cb.hasMatched ==> |cb.args| >= 1 && (v != IntStructFloatStruct ==> |cb.args| >= 2)
  }

  /** Checking the recorded kinds against the required variant. */
  function AssertVariant(cb: KernelCallback, v: OclParam): (r: Report)
    requires Checkable(cb, v)
    ensures !cb.hasMatched ==> r.verdict == Fail(CompilationFailed) && !r.warned
    ensures cb.hasMatched ==> (r.warned <==> cb.args[0] != Pointer)
  {
    if !cb.hasMatched then Report(false, Fail(CompilationFailed))
    else Report(cb.args[0] != Pointer, Switch(v, cb.args))
  }

  /** The kinds each variant accepts, stated independently of the `switch`. */
  predicate Accepts(v: OclParam, args: seq<ArgType>)
  {
    match v
    case IntStructFloatStruct => |args| == 3 && args[1] == Aggregate && args[2] == Aggregate
    case OneByOne => false
    case Struct => |args| == 2 && args[1] == Aggregate
    case IntStructFloatOneByOne => |args| == 2 && args[1] == Aggregate
    case FloatStructIntOneByOne => |args| >= 2 && args[1] == Aggregate && AllFrom(args, 2, {Floating})
  }

  /** From label k the fall-through passes exactly when every later check holds. */
  lemma {:induction false} FallFromPasses(k: nat, args: seq<ArgType>)
    requires k <= 4 && |args| >= 2
    ensures FallFrom(k, args).Pass? <==> forall j :: k <= j < 4 ==> Check(j, args)
    decreases 4 - k
  {
    if k < 4 {
      FallFromPasses(k + 1, args);
    }
  }

  /** The fall-through from label k stops at the first check that does not
      hold. */
  lemma {:induction false} FallFromFirstFailure(k: nat, args: seq<ArgType>, j: nat)
    requires k <= j < 4 && |args| >= 2
    requires !Check(j, args) && forall i :: k <= i < j ==> Check(i, args)
    ensures FirstFailing(k, args) == Some(j)
    decreases j - k
  {
    if k < j {
      FallFromFirstFailure(k + 1, args, j);
    }
  }

  /** A matched callback passes exactly the kinds its variant accepts: the
      fall-through leaves `OneByOne` with no passing input, makes `Struct` and
      `IntStructFloatOneByOne` demand exactly two parameters, and leaves
      `FloatStructIntOneByOne` alone with its own check. */
  lemma PassesExactly(cb: KernelCallback, v: OclParam)
    requires cb.hasMatched && Checkable(cb, v)
    ensures AssertVariant(cb, v).verdict.Pass? <==> Accepts(v, cb.args)
  {
    var args := cb.args;
    if v != IntStructFloatStruct {
      FallFromPasses(Entry(v), args);
      if v == Struct || v == IntStructFloatOneByOne {
        if |args| > 2 {
          assert args[2] in {Integral} ==> args[2] !in {Floating};
        }
      } else if v == OneByOne && Check(0, args) {
        assert args[1] in {Floating, Integral};
      }
    }
  }

  /** The kind of the first parameter only decides the diagnostic: two
      callbacks that agree from the second parameter on get the same verdict. */
  lemma FirstArgumentIgnored(cb1: KernelCallback, cb2: KernelCallback, v: OclParam)
    requires Checkable(cb1, v) && Checkable(cb2, v)
    requires cb1.hasMatched == cb2.hasMatched
    requires |cb1.args| == |cb2.args|
    requires forall i :: 1 <= i < |cb1.args| ==> cb1.args[i] == cb2.args[i]
    ensures AssertVariant(cb1, v).verdict == AssertVariant(cb2, v).verdict
  {
    if cb1.hasMatched && v != IntStructFloatStruct {
      CheckIgnoresFirst(cb1.args, cb2.args);
      FallFromAgrees(Entry(v), cb1.args, cb2.args);
    }
  }

  /** Every check reads only the parameters after the first. */
  lemma CheckIgnoresFirst(a1: seq<ArgType>, a2: seq<ArgType>)
    requires |a1| == |a2| >= 2
    requires forall i :: 1 <= i < |a1| ==> a1[i] == a2[i]
    ensures forall k :: 0 <= k < 4 ==> (Check(k, a1) <==> Check(k, a2))
  {
  }

  /** Sequences on which every check agrees run the same fall-through. */
  lemma {:induction false} FallFromAgrees(k: nat, a1: seq<ArgType>, a2: seq<ArgType>)
    requires |a1| >= 2 && |a2| >= 2
    requires forall j :: 0 <= j < 4 ==> (Check(j, a1) <==> Check(j, a2))
    ensures FallFrom(k, a1) == FallFrom(k, a2)
    decreases 4 - k
  {
    if k < 4 {
      assert Check(k, a1) <==> Check(k, a2);
      FallFromAgrees(k + 1, a1, a2);
    }
  }

  /** `OneByOne` rejects every signature: with every later parameter a float
      or an integer, the `Struct` check that follows it fails, and otherwise its
      own check does. */
  lemma OneByOneNeverPasses(cb: KernelCallback)
    requires cb.hasMatched && Checkable(cb, OneByOne)
    ensures AssertVariant(cb, OneByOne).verdict ==
            Fail(AssertPrefix + Message(if Check(0, cb.args) then 1 else 0))
  {
    if Check(0, cb.args) {
      assert cb.args[1] in {Floating, Integral};
      FallFromFirstFailure(0, cb.args, 1);
    } else {
      FallFromFirstFailure(0, cb.args, 0);
    }
  }

  // ---------------------------------------------------------------------
  // The checks each variant was meant to make

  /** The `switch` with a `break` after every case: each variant runs only its
      own check. It accepts everything the fall-through accepts, and agrees with
      it on the two variants whose case already ends the `switch`. */
  function SwitchIntended(v: OclParam, args: seq<ArgType>): (r: Verdict)
    requires v != IntStructFloatStruct ==> |args| >= 2
    ensures v != IntStructFloatStruct ==>
              r == (if Check(Entry(v), args) then Pass else Fail(AssertPrefix + Message(Entry(v))))
    ensures Switch(v, args).Pass? ==> r.Pass?
    ensures v == IntStructFloatStruct || v == FloatStructIntOneByOne ==> r == Switch(v, args)
  {
    if v == IntStructFloatStruct then Switch(v, args)
    else
      FallFromPasses(Entry(v), args);
      assert v == FloatStructIntOneByOne && !Check(3, args) ==> FirstFailing(3, args) == Some(3) by {
        if v == FloatStructIntOneByOne && !Check(3, args) {
          FallFromFirstFailure(3, args, 3);
        }
      }
      AssertB(Check(Entry(v), args), Message(Entry(v)))
  }

  /** Checking the recorded kinds with each variant's own check only. */
  function AssertVariantIntended(cb: KernelCallback, v: OclParam): (r: Report)
    requires Checkable(cb, v)
    ensures !cb.hasMatched ==> r.verdict == Fail(CompilationFailed)
    ensures cb.hasMatched ==> (r.warned <==> cb.args[0] != Pointer)
    ensures cb.hasMatched && v == OneByOne ==>
              (r.verdict.Pass? <==> AllFrom(cb.args, 1, {Floating, Integral}))
    ensures cb.hasMatched && v == Struct ==> (r.verdict.Pass? <==> cb.args[1] == Aggregate)
  {
    if !cb.hasMatched then Report(false, Fail(CompilationFailed))
    else Report(cb.args[0] != Pointer, SwitchIntended(v, cb.args))
  }

  /** The fall-through only adds checks: whatever passes as written passes
      with a `break` after every case, and the two variants whose case already
      ends the `switch` (`IntStructFloatStruct` by its `break`,
      `FloatStructIntOneByOne` as the last case) behave the same either way. */
  lemma AsWrittenStricter(cb: KernelCallback, v: OclParam)
    requires Checkable(cb, v)
    ensures AssertVariant(cb, v).verdict.Pass? ==> AssertVariantIntended(cb, v).verdict.Pass?
    ensures v == IntStructFloatStruct || v == FloatStructIntOneByOne ==>
              AssertVariant(cb, v) == AssertVariantIntended(cb, v)
  {
    if cb.hasMatched && v != IntStructFloatStruct {
      FallFromPasses(Entry(v), cb.args);
      if v == FloatStructIntOneByOne && !Check(3, cb.args) {
        FallFromFirstFailure(3, cb.args, 3);
      }
    }
  }

  /** A kernel taking the shared buffer, a float and an integer one by one is
      rejected under `OneByOne` as written, and accepted when each case ends
      with `break`. */
  lemma OneByOneWitness()
    ensures AssertVariant(KernelCallback(true, [Pointer, Floating, Integral]), OneByOne).verdict
            == Fail(AssertPrefix + Message(1))
    ensures AssertVariantIntended(KernelCallback(true, [Pointer, Floating, Integral]), OneByOne).verdict
            == Pass
  {
    var args := [Pointer, Floating, Integral];
    assert Check(0, args) by {
      assert forall i :: 1 <= i < |args| ==> args[i] in {Floating, Integral};
    }
    OneByOneNeverPasses(KernelCallback(true, args));
  }

  // ---------------------------------------------------------------------
  // Classification of the kernel's parameters

  /** Whether kind k's Clang predicate holds for a type. */
  predicate Has(t: Traits, k: ArgType)
  {
    match k
    case Floating => t.isFloating
    case Integral => t.isIntegral
    case Aggregate => t.isAggregate
    case Pointer => t.isPointer
  }

  /** Position of a kind in the order the predicates are tried. */
  function Precedence(k: ArgType): (p: nat)
    ensures p < 4
  {
    match k
    case Floating => 0
    case Integral => 1
    case Aggregate => 2
    case Pointer => 3
  }

  /** The kind recorded for one parameter; None when no predicate holds and the
      callback throws "Unhandled type". */
  function Classify(t: Traits): (k: Option<ArgType>)
  {
    if t.isFloating then Some(Floating)
    else if t.isIntegral then Some(Integral)
    else if t.isAggregate then Some(Aggregate)
    else if t.isPointer then Some(Pointer)
    else None
  }

  /** Classification picks the first kind, in precedence order, whose predicate
      holds, and fails only when none holds. */
  lemma ClassifyFirstHolding(t: Traits, k: ArgType)
    ensures Classify(t) == Some(k) <==>
              Has(t, k) && forall k' :: Precedence(k') < Precedence(k) ==> !Has(t, k')
    ensures Classify(t).None? <==> forall k' :: !Has(t, k')
  {
    if Classify(t).None? {
      assert forall k' :: !Has(t, k') by {
        forall k' ensures !Has(t, k') {
          match k' {
            case Floating =>
            case Integral =>
            case Aggregate =>
            case Pointer =>
          }
        }
      }
    }
    if forall k' :: !Has(t, k') {
      assert !Has(t, Floating) && !Has(t, Integral) && !Has(t, Aggregate) && !Has(t, Pointer);
    }
    if Has(t, k) && forall k' :: Precedence(k') < Precedence(k) ==> !Has(t, k') {
      assert !Has(t, Floating) || k == Floating;
      assert Precedence(k) > 1 ==> !Has(t, Integral);
      assert Precedence(k) > 2 ==> !Has(t, Aggregate);
    }
  }

  /** The kinds of the parameters before the first one no predicate classifies. */
  function KindsBefore(params: seq<Traits>, n: nat): (kinds: seq<ArgType>)
    requires n <= |params| && forall i :: 0 <= i < n ==> Classify(params[i]).Some?
    ensures |kinds| == n
    ensures forall i :: 0 <= i < n ==> Classify(params[i]) == Some(kinds[i])
  {
    if n == 0 then [] else KindsBefore(params, n - 1) + [Classify(params[n - 1]).value]
  }

  /** The callback run on a match result: `node` holds the traits of the
      matched kernel's parameters, or is None when the kernel was not found.
      A matched kernel sets the flag and appends one kind per parameter, until a
      parameter of no handled kind throws "Unhandled type", leaving the kinds
      appended before it. */
  method Run(cb: KernelCallback, node: Option<seq<Traits>>) returns (cb': KernelCallback, error: Option<string>)
    ensures node.None? ==> cb' == cb && error.None?
    ensures node.Some? ==> cb'.hasMatched
    ensures node.Some? && error.None? ==>
              (forall i :: 0 <= i < |node.value| ==> Classify(node.value[i]).Some?) &&
              cb'.args == cb.args + KindsBefore(node.value, |node.value|)
    ensures error.Some? ==>
              node.Some? && error.value == UnhandledType &&
              exists n :: 0 <= n < |node.value| && Classify(node.value[n]).None? &&
                (forall i :: 0 <= i < n ==> Classify(node.value[i]).Some?) &&
                cb'.args == cb.args + KindsBefore(node.value, n)
  {
    if node.None? {
      return cb, None;
    }
    var params := node.value;
    var args := cb.args;
    var i := 0;
    while i < |params|
      invariant 0 <= i <= |params|
      invariant forall j :: 0 <= j < i ==> Classify(params[j]).Some?
      invariant args == cb.args + KindsBefore(params, i)
    {
      var k := Classify(params[i]);
      if k.None? {
        return KernelCallback(true, args), Some(UnhandledType);
      }
      args := args + [k.value];
      i := i + 1;
    }
    return KernelCallback(true, args), None;
  }
}

=== FILE: messages.dfy ===
/** Point-to-point messages and how receives match them.

    A receive names its source, its own rank and a tag. Messages from one sender
    to one receiver with one tag do not overtake each other (section 3.5 of the
    MPI 3.1 standard), so the k-th receive a process posts for a given (source,
    tag) gets the k-th message that source posted to it with that tag. */
module Messages {
  import opened Outcomes
  import opened Tiles

  /** What a message carries: the `{width, height, padding}` record of
      create_grid_struct, or cells. */
  datatype Payload =
    | Meta(width: nat, height: nat, padding: nat)
    | Cells(cells: seq<Cell>)

  datatype Message = Message(src: nat, dst: nat, tag: nat, payload: Payload)

  /** The payloads one sender addressed to `dst` with `tag`, in posting order. */
  function Channel(sent: seq<Message>, dst: nat, tag: nat): (ch: seq<Payload>)
    ensures |ch| <= |sent|
  {
    if |sent| == 0 then []
    else (if sent[0].dst == dst && sent[0].tag == tag then [sent[0].payload] else [])
         + Channel(sent[1..], dst, tag)
  }

  /** The payload the k-th receive posted by `dst` for (`src`, `tag`) gets, given
      every process's posted sends; None when no send matches it. */
  function Receive(sends: map<nat, seq<Message>>, src: nat, dst: nat, tag: nat, k: nat): (p: Option<Payload>)
    ensures p.Some? <==> src in sends && k < |Channel(sends[src], dst, tag)|
    ensures p.Some? ==> p.value == Channel(sends[src], dst, tag)[k]
  {
    if src in sends && k < |Channel(sends[src], dst, tag)| then Some(Channel(sends[src], dst, tag)[k]) else None
  }

  /** Channels of consecutive posting sequences concatenate. */
  lemma {:induction false} ChannelAppend(a: seq<Message>, b: seq<Message>, dst: nat, tag: nat)
    ensures Channel(a + b, dst, tag) == Channel(a, dst, tag) + Channel(b, dst, tag)
  {
    if |a| > 0 {
      assert (a + b)[1..] == a[1..] + b;
      ChannelAppend(a[1..], b, dst, tag);
    } else {
      assert a + b == b;
    }
  }

  /** Non-overtaking: the message posted at position i is the one the receive
      numbered by the count of earlier matching messages gets, and a later
      matching message goes to a later receive. */
  lemma {:induction false} NonOvertaking(sent: seq<Message>, i: nat, dst: nat, tag: nat)
    requires i < |sent| && sent[i].dst == dst && sent[i].tag == tag
    ensures |Channel(sent[..i], dst, tag)| < |Channel(sent, dst, tag)|
    ensures Channel(sent, dst, tag)[|Channel(sent[..i], dst, tag)|] == sent[i].payload
    ensures |Channel(sent[..i + 1], dst, tag)| == |Channel(sent[..i], dst, tag)| + 1
  {
    assert sent == sent[..i] + [sent[i]] + sent[i + 1..];
    ChannelAppend(sent[..i] + [sent[i]], sent[i + 1..], dst, tag);
    ChannelAppend(sent[..i], [sent[i]], dst, tag);
    assert sent[..i + 1] == sent[..i] + [sent[i]];
    assert Channel([sent[i]], dst, tag) == [sent[i].payload];
  }

  /** A message whose tag no other message of the sender uses is alone on its
      channel. */
  lemma {:induction false} ChannelUnique(sent: seq<Message>, i: nat, dst: nat, tag: nat)
    requires i < |sent| && sent[i].dst == dst && sent[i].tag == tag
    requires forall j :: 0 <= j < |sent| && j != i ==> sent[j].tag != tag
    ensures Channel(sent, dst, tag) == [sent[i].payload]
  {
    ChannelEmpty(sent[..i], dst, tag);
    ChannelEmpty(sent[i + 1..], dst, tag);
    assert sent == sent[..i] + [sent[i]] + sent[i + 1..];
    ChannelAppend(sent[..i] + [sent[i]], sent[i + 1..], dst, tag);
    ChannelAppend(sent[..i], [sent[i]], dst, tag);
  }

  /** A sender with no message for (dst, tag) has an empty channel. */
  lemma {:induction false} ChannelEmpty(sent: seq<Message>, dst: nat, tag: nat)
    requires forall j :: 0 <= j < |sent| ==> sent[j].dst != dst || sent[j].tag != tag
    ensures Channel(sent, dst, tag) == []
  {
    if |sent| > 0 {
      ChannelEmpty(sent[1..], dst, tag);
    }
  }
}

=== FILE: outcomes.dfy ===
/** Outcomes of the simulation's communication routines: every routine returns 0 /
    a pointer on success and -1 / NULL on failure, and the failure is always the
    first MPI call that reported an error. */
module Outcomes {

  /** The MPI calls of the simulation, named by the routine step that issues them.
      Steps that are repeated per peer carry that peer's rank. */
  datatype Call =
    // heatsim_init
    | CommRank
    | CommSize
    | CartCreate
    | CartShift(dimension: nat)
    // rank -> coordinate query
    | CoordsQuery(rank: nat)
    // derived datatypes: create_grid_struct, create_data_struct, border types
    | GridStruct
    | DataStruct(rank: nat)
    | BorderType(step: nat)
    // metadata and data transfers for a rank: post, then completion
    | PostMeta(rank: nat)
    | WaitMeta(rank: nat)
    | PostData(rank: nat)
    | WaitData(rank: nat)
    // border exchange: the eight posts, then the single Waitall
    | PostBorder(slot: nat)
    | WaitBorders
    // result collection: request/status arrays, then the single Waitall
    | AllocRequests
    | AllocStatuses
    | WaitResults

  /** Why a routine failed. `Unmatched` stands for a receive that no send ever
      matches: the routine would block forever in its wait. */
  datatype Reason =
    | Failed(call: Call)
    | Unmatched(call: Call)
    | Undefined

  datatype Result<+T> = Ok(value: T) | Err(reason: Reason)

  datatype Option<+T> = None | Some(value: T)

  /** Outcome of a routine that returns only a status. */
  datatype Status = Done | Aborted(reason: Reason)

  /** The calls the runtime makes fail on rank r; a rank absent from the map
      sees no failure. */
  function FaultsOf(faults: map<nat, set<Call>>, r: nat): (f: set<Call>)
    ensures r !in faults ==> f == {}
  {
    if r in faults then faults[r] else {}
  }
}

=== FILE: tiles.dfy ===
/** Padded tiles and the element layouts used to move parts of them.

    A tile of width x height cells carries a ghost border `padding` cells wide.
    Its buffer is row-major over the padded extents, so cell (x, y), for x in
    [-padding, width + padding) and y in [-padding, height + padding), lives at
    (y + padding) * width_padded + (x + padding).

    A layout lists the buffer positions a transfer reads or writes, relative to
    its start: MPI_Type_contiguous(count) selects count consecutive cells and
    MPI_Type_vector(count, 1, stride) selects count cells `stride` apart (section
    4.1.2 of the MPI 3.1 standard). */
module Tiles {
  import opened Arith

  /** One double of the field, kept as its bit pattern: the model moves cells and
      never computes with them. */
  type Cell = bv64

  datatype Grid = Grid(width: nat, height: nat, padding: nat, data: seq<Cell>) {

    function WidthPadded(): nat { width + 2 * padding }

    function HeightPadded(): nat { height + 2 * padding }

    /** The buffer holds exactly the padded extents. */
    predicate Valid() { |data| == WidthPadded() * HeightPadded() }

    predicate InPadded(x: int, y: int) {
      -(padding as int) <= x < width + padding && -(padding as int) <= y < height + padding
    }

    predicate InInterior(x: int, y: int) {
      0 <= x < width && 0 <= y < height
    }

    /** Position of cell (x, y) in the buffer. */
    function Index(x: int, y: int): (i: nat)
      requires InPadded(x, y)
      ensures i < WidthPadded() * HeightPadded()
    {
      MulMonotonic(y + padding, HeightPadded() - 1, WidthPadded());
      (y + padding) * WidthPadded() + (x + padding)
    }

    /** grid_get_cell, read through the returned pointer. */
    function Get(x: int, y: int): Cell
      requires Valid() && InPadded(x, y)
    {
      data[Index(x, y)]
    }
  }

  /** Distinct cells have distinct buffer positions. */
  lemma IndexInjective(g: Grid, x1: int, y1: int, x2: int, y2: int)
    requires g.InPadded(x1, y1) && g.InPadded(x2, y2)
    requires g.Index(x1, y1) == g.Index(x2, y2)
    ensures x1 == x2 && y1 == y2
  {
    var p := g.padding;
    DivModUnique(g.Index(x1, y1), g.WidthPadded(), y1 + p, x1 + p);
    DivModUnique(g.Index(x2, y2), g.WidthPadded(), y2 + p, x2 + p);
  }

  /** grid_create: a valid tile of the given extents. The header declaring it is
      not part of this model, so its initial contents are the parameter `fill`. */
  function Create(width: nat, height: nat, padding: nat, fill: Cell): (g: Grid)
    ensures g.Valid()
    ensures g.width == width && g.height == height && g.padding == padding
    ensures forall x, y :: g.InPadded(x, y) ==> g.Get(x, y) == fill
  {
    var wp, hp := width + 2 * padding, height + 2 * padding;
    Grid(width, height, padding, seq(wp * hp, _ => fill))
  }

  datatype Layout = Contiguous(count: nat) | Vector(count: nat, stride: nat) {
    /** Distance between consecutive selected cells. */
    function Stride(): nat {
      if Contiguous? then 1 else stride
    }
  }

  /** The layout placed at `start` stays inside a buffer of n cells. */
  predicate Fits(n: nat, start: nat, l: Layout) {
    l.count == 0 || start + (l.count - 1) * l.Stride() < n
  }

  lemma FitsAt(n: nat, start: nat, l: Layout, k: nat)
    requires Fits(n, start, l) && k < l.count
    ensures start + k * l.Stride() < n
  {
    MulMonotonic(k, l.count - 1, l.Stride());
  }

  /** The cells a send with layout l at `start` transmits, in order. */
  function Gather(buf: seq<Cell>, start: nat, l: Layout): (out: seq<Cell>)
    requires Fits(|buf|, start, l)
    ensures |out| == l.count
  {
    seq(l.count, k requires 0 <= k < l.count => FitsAt(|buf|, start, l, k); buf[start + k * l.Stride()])
  }

  /** Position i receives one of the first n elements of a transfer at `start`. */
  predicate Covers(start: nat, stride: nat, n: nat, i: nat)
    requires stride > 0
  {
    start <= i && (i - start) % stride == 0 && (i - start) / stride < n
  }

  /** A receive with layout l at `start` of a message of |payload| <= count cells:
      the first |payload| selected positions take the payload, in order, and
      every other position keeps its value (a shorter message is allowed, section
      3.2.4 of the MPI 3.1 standard). */
  function Scatter(buf: seq<Cell>, start: nat, l: Layout, payload: seq<Cell>): (out: seq<Cell>)
    requires l.Stride() > 0 && Fits(|buf|, start, l) && |payload| <= l.count
    ensures |out| == |buf|
  {
    seq(|buf|, i requires 0 <= i < |buf| =>
      if Covers(start, l.Stride(), |payload|, i) then payload[(i - start) / l.Stride()] else buf[i])
  }

  /** Scatter writes payload[k] at the k-th selected position and nothing else. */
  lemma ScatterCells(buf: seq<Cell>, start: nat, l: Layout, payload: seq<Cell>)
    requires l.Stride() > 0 && Fits(|buf|, start, l) && |payload| <= l.count
    ensures forall k :: 0 <= k < |payload| ==>
              start + k * l.Stride() < |buf| && Scatter(buf, start, l, payload)[start + k * l.Stride()] == payload[k]
    ensures forall i :: 0 <= i < |buf| && !Covers(start, l.Stride(), |payload|, i) ==>
              Scatter(buf, start, l, payload)[i] == buf[i]
  {
    forall k | 0 <= k < |payload|
      ensures start + k * l.Stride() < |buf| && Scatter(buf, start, l, payload)[start + k * l.Stride()] == payload[k]
    {
      FitsAt(|buf|, start, l, k);
      DivModUnique(k * l.Stride(), l.Stride(), k, 0);
    }
  }

  /** Receiving what a send with the same layout transmits changes nothing. */
  lemma {:induction false} ScatterGather(buf: seq<Cell>, start: nat, l: Layout)
    requires l.Stride() > 0 && Fits(|buf|, start, l)
    ensures Scatter(buf, start, l, Gather(buf, start, l)) == buf
  {
    var out := Scatter(buf, start, l, Gather(buf, start, l));
    forall i | 0 <= i < |buf| ensures out[i] == buf[i] {
      ScatterGatherAt(buf, start, l, i);
    }
  }

  lemma ScatterGatherAt(buf: seq<Cell>, start: nat, l: Layout, i: nat)
    requires l.Stride() > 0 && Fits(|buf|, start, l) && i < |buf|
    ensures Scatter(buf, start, l, Gather(buf, start, l))[i] == buf[i]
  {
    var st := l.Stride();
    if Covers(start, st, l.count, i) {
      var o := i - start;
      var k := o / st;
      assert o == k * st + o % st;
      assert o % st == 0;
      assert Gather(buf, start, l)[k] == buf[start + k * st];
    }
  }

  /** Sending what was received with the same layout yields the received payload. */
  lemma GatherScatter(buf: seq<Cell>, start: nat, l: Layout, payload: seq<Cell>)
    requires l.Stride() > 0 && Fits(|buf|, start, l) && |payload| <= l.count
    ensures Gather(Scatter(buf, start, l, payload), start, l)[..|payload|] == payload
  {
    ScatterCells(buf, start, l, payload);
  }

  // ---------------------------------------------------------------------
  // Rows and columns of a tile

  /** The row layout: `width` contiguous cells. */
  function RowLayout(g: Grid): Layout { Contiguous(g.width) }

  /** The column layout: `height` cells at stride width_padded. */
  function ColumnLayout(g: Grid): Layout { Vector(g.height, g.WidthPadded()) }

  /** A send of row y (layout RowLayout at cell (0, y)) carries that row's cells. */
  function ReadRow(g: Grid, y: int): (cells: seq<Cell>)
    requires g.Valid() && g.InPadded(0, y)
    ensures |cells| == g.width
    ensures forall x :: 0 <= x < g.width ==> cells[x] == g.Get(x, y)
  {
    RowStep(g, y);
    Gather(g.data, g.Index(0, y), RowLayout(g))
  }

  /** A send of column x (layout ColumnLayout at cell (x, 0)) carries that column's
      cells, top to bottom, skipping the padded width between them. */
  function ReadColumn(g: Grid, x: int): (cells: seq<Cell>)
    requires g.Valid() && g.InPadded(x, 0)
    ensures |cells| == g.height
    ensures forall y :: 0 <= y < g.height ==> cells[y] == g.Get(x, y)
  {
    ColumnStep(g, x);
    Gather(g.data, g.Index(x, 0), ColumnLayout(g))
  }

  /** The k-th cell of the row layout at (0, y) is cell (k, y). */
  lemma RowStep(g: Grid, y: int)
    requires g.Valid() && g.InPadded(0, y)
    ensures forall k :: 0 <= k < g.width ==> g.Index(0, y) + k * RowLayout(g).Stride() == g.Index(k, y)
    ensures Fits(|g.data|, g.Index(0, y), RowLayout(g))
  {
    if g.width > 0 {
      assert g.Index(0, y) + (g.width - 1) == g.Index(g.width - 1, y);
    }
  }

  /** The k-th cell of the column layout at (x, 0) is cell (x, k). */
  lemma ColumnStep(g: Grid, x: int)
    requires g.Valid() && g.InPadded(x, 0)
    ensures forall k :: 0 <= k < g.height ==> g.Index(x, 0) + k * g.WidthPadded() == g.Index(x, k)
    ensures Fits(|g.data|, g.Index(x, 0), ColumnLayout(g))
  {
    var wp, p := g.WidthPadded(), g.padding;
    forall k | 0 <= k < g.height ensures g.Index(x, 0) + k * wp == g.Index(x, k) {
      assert g.Index(x, 0) == p * wp + (x + p);
      assert g.Index(x, k) == (k + p) * wp + (x + p);
      assert (k + p) * wp == k * wp + p * wp;
    }
    if g.height > 0 {
      assert g.Index(x, 0) + (g.height - 1) * wp == g.Index(x, g.height - 1);
    }
  }

  /** The positions a row receive into row y covers are exactly the first n cells
      of that row. */
  lemma RowCovers(g: Grid, y: int, n: nat, x': int, y': int)
    requires g.InPadded(0, y) && g.InPadded(x', y') && n <= g.width
    ensures Covers(g.Index(0, y), 1, n, g.Index(x', y')) <==> y' == y && 0 <= x' < n
  {
    var wp := g.WidthPadded();
    var o := g.Index(x', y') - g.Index(0, y);
    assert o == (y' - y) * wp + x';
    if y' > y {
      MulAtLeast(y' - y, wp);
    } else if y' < y {
      MulAtLeast(y - y', wp);
      assert (y' - y) * wp == -((y - y') * wp);
    }
  }

  /** The positions a column receive into column x covers are exactly the first n
      cells of that column, and the k-th of them is cell (x, k). */
  lemma ColumnCovers(g: Grid, x: int, n: nat, x': int, y': int)
    requires g.InPadded(x, 0) && g.InPadded(x', y') && n <= g.height
    ensures g.WidthPadded() > 0
    ensures Covers(g.Index(x, 0), g.WidthPadded(), n, g.Index(x', y')) <==> x' == x && 0 <= y' < n
    ensures x' == x && 0 <= y' < n ==> (g.Index(x', y') - g.Index(x, 0)) / g.WidthPadded() == y'
  {
    var wp := g.WidthPadded();
    var o := g.Index(x', y') - g.Index(x, 0);
    var dx := x' - x;
    assert o == y' * wp + dx by {
      assert (y' + g.padding) * wp == y' * wp + g.padding * wp;
    }
    if dx >= 0 {
      DivModUnique(o, wp, y', dx);
      if y' < 0 {
        MulAtLeast(-y', wp);
        assert y' * wp == -((-y') * wp);
      }
    } else {
      assert o == (y' - 1) * wp + (wp + dx) by {
        assert (y' - 1) * wp == y' * wp - wp;
      }
      DivModUnique(o, wp, y' - 1, wp + dx);
    }
  }

  /** A receive into row y: the first |cells| cells of that row take the message,
      every other cell of the tile, ghost or interior, keeps its value. */
  function WriteRow(g: Grid, y: int, cells: seq<Cell>): (g': Grid)
    requires g.Valid() && g.InPadded(0, y) && |cells| <= g.width
    ensures g'.Valid()
    ensures g'.width == g.width && g'.height == g.height && g'.padding == g.padding
    ensures forall x', y' :: g.InPadded(x', y') ==>
              g'.Get(x', y') == if y' == y && 0 <= x' < |cells| then cells[x'] else g.Get(x', y')
  {
    RowStep(g, y);
    var g' := g.(data := Scatter(g.data, g.Index(0, y), RowLayout(g), cells));
    WriteRowCells(g, y, cells, g');
    g'
  }

  lemma WriteRowCells(g: Grid, y: int, cells: seq<Cell>, g': Grid)
    requires g.Valid() && g.InPadded(0, y) && |cells| <= g.width
    requires Fits(|g.data|, g.Index(0, y), RowLayout(g))
    requires g' == g.(data := Scatter(g.data, g.Index(0, y), RowLayout(g), cells))
    ensures forall x', y' :: g.InPadded(x', y') ==>
              g'.Get(x', y') == if y' == y && 0 <= x' < |cells| then cells[x'] else g.Get(x', y')
  {
    forall x', y' | g.InPadded(x', y')
      ensures g'.Get(x', y') == if y' == y && 0 <= x' < |cells| then cells[x'] else g.Get(x', y')
    {
      RowCovers(g, y, |cells|, x', y');
    }
  }

  /** A receive into column x: the first |cells| cells of that column take the
      message, every other cell keeps its value. */
  function WriteColumn(g: Grid, x: int, cells: seq<Cell>): (g': Grid)
    requires g.Valid() && g.InPadded(x, 0) && |cells| <= g.height
    ensures g'.Valid()
    ensures g'.width == g.width && g'.height == g.height && g'.padding == g.padding
    ensures forall x', y' :: g.InPadded(x', y') ==>
              g'.Get(x', y') == if x' == x && 0 <= y' < |cells| then cells[y'] else g.Get(x', y')
  {
    ColumnStep(g, x);
    var g' := g.(data := Scatter(g.data, g.Index(x, 0), ColumnLayout(g), cells));
    WriteColumnCells(g, x, cells, g');
    g'
  }

  lemma WriteColumnCells(g: Grid, x: int, cells: seq<Cell>, g': Grid)
    requires g.Valid() && g.InPadded(x, 0) && |cells| <= g.height
    requires Fits(|g.data|, g.Index(x, 0), ColumnLayout(g))
    requires g' == g.(data := Scatter(g.data, g.Index(x, 0), ColumnLayout(g), cells))
    ensures forall x', y' :: g.InPadded(x', y') ==>
              g'.Get(x', y') == if x' == x && 0 <= y' < |cells| then cells[y'] else g.Get(x', y')
  {
    forall x', y' | g.InPadded(x', y')
      ensures g'.Get(x', y') == if x' == x && 0 <= y' < |cells| then cells[y'] else g.Get(x', y')
    {
      ColumnCovers(g, x, |cells|, x', y');
    }
  }

  /** A contiguous receive of |cells| <= count cells at the start of a buffer
      replaces exactly that prefix. */
  function WritePrefix(buf: seq<Cell>, count: nat, cells: seq<Cell>): (out: seq<Cell>)
    requires count <= |buf| && |cells| <= count
    ensures |out| == |buf|
    ensures out[..|cells|] == cells
    ensures out[|cells|..] == buf[|cells|..]
  {
    var out := Scatter(buf, 0, Contiguous(count), cells);
    ScatterCells(buf, 0, Contiguous(count), cells);
    assert forall i :: |cells| <= i < |buf| ==> !Covers(0, 1, |cells|, i);
    out
  }
}

=== FILE: topology.dfy ===
/** The periodic two-dimensional process grid of the heat simulation
    (tp3/source/heatsim-mpi.c, heatsim_init), following MPI_CART_CREATE,
    MPI_CART_COORDS and MPI_CART_SHIFT (sections 7.5.1, 7.5.5 and 7.5.6 of the
    MPI 3.1 standard). Ranks are numbered in row-major order: dimension 0 (x)
    varies slowest, so the rank at (x, y) is x * dims.y + y. */
module Topology {
  import opened Arith
  import opened Outcomes

  /** Number of processes along x (dimension 0) and y (dimension 1). */
  datatype Dims = Dims(x: nat, y: nat) {
    function Size(): nat { x * y }
  }

  datatype Coord = Coord(x: nat, y: nat)

  predicate InGrid(d: Dims, c: Coord) {
    c.x < d.x && c.y < d.y
  }

  /** Position of (x, y) in row-major order with rows of w: x * w + y, counted
      one row at a time. */
  function RowMajor(x: nat, y: nat, w: nat): nat
    decreases x
  {
    if x == 0 then y else w + RowMajor(x - 1, y, w)
  }

  /** Row and column of position r in row-major order with rows of w. */
  function Split(r: nat, w: nat): (c: Coord)
    requires w > 0
    decreases r
    ensures c.y < w
  {
    if r < w then Coord(0, r) else var c := Split(r - w, w); Coord(c.x + 1, c.y)
  }

  lemma {:induction false} RowMajorIs(x: nat, y: nat, w: nat)
    ensures RowMajor(x, y, w) == x * w + y
  {
    if x > 0 {
      RowMajorIs(x - 1, y, w);
      assert (x - 1) * w + w == x * w;
    }
  }

  /** Split undoes RowMajor and RowMajor undoes Split. */
  lemma {:induction false} SplitInverse(r: nat, w: nat)
    requires w > 0
    ensures RowMajor(Split(r, w).x, Split(r, w).y, w) == r
  {
    if r >= w {
      SplitInverse(r - w, w);
    }
  }

  lemma {:induction false} SplitRowMajor(x: nat, y: nat, w: nat)
    requires y < w
    ensures Split(RowMajor(x, y, w), w) == Coord(x, y)
  {
    if x > 0 {
      SplitRowMajor(x - 1, y, w);
    }
  }

  /** MPI_Cart_rank: the rank at coordinate c, c.x * d.y + c.y. */
  function CartRank(d: Dims, c: Coord): (r: nat)
    requires InGrid(d, c)
    ensures r < d.Size()
  {
    RowMajorIs(c.x, c.y, d.y);
    MulMonotonic(c.x, d.x - 1, d.y);
    RowMajor(c.x, c.y, d.y)
  }

  /** MPI_Cart_coords: the coordinate of rank r; it is the coordinate whose rank is r. */
  function CartCoords(d: Dims, r: nat): (c: Coord)
    requires r < d.Size()
    ensures InGrid(d, c)
    ensures CartRank(d, c) == r
  {
    RowBelow(d, r);
    SplitInverse(r, d.y);
    Split(r, d.y)
  }

  /** A rank below x*y lies in a row below x. */
  lemma RowBelow(d: Dims, r: nat)
    requires r < d.Size()
    ensures d.y > 0 && Split(r, d.y).x < d.x
  {
    var c := Split(r, d.y);
    SplitInverse(r, d.y);
    RowMajorIs(c.x, c.y, d.y);
    if c.x >= d.x {
      MulMonotonic(d.x, c.x, d.y);
    }
  }

  /** The rank formula of the row-major numbering. */
  lemma RankFormula(d: Dims, c: Coord)
    requires InGrid(d, c)
    ensures CartRank(d, c) == c.x * d.y + c.y
  {
    RowMajorIs(c.x, c.y, d.y);
  }

  /** Coordinates and ranks are in one-to-one correspondence. */
  lemma CoordsOfRank(d: Dims, c: Coord)
    requires InGrid(d, c)
    ensures CartCoords(d, CartRank(d, c)) == c
  {
    SplitRowMajor(c.x, c.y, d.y);
  }

  /** Distinct ranks have distinct coordinates. */
  lemma CoordsInjective(d: Dims, r1: nat, r2: nat)
    requires r1 < d.Size() && r2 < d.Size()
    requires CartCoords(d, r1) == CartCoords(d, r2)
    ensures r1 == r2
  {
  }

  /** Periodic wrap-around of a coordinate along a dimension of extent n,
      one extent at a time. */
  function Wrap(v: int, n: nat): (w: nat)
    requires n > 0
    decreases if v < 0 then n - v else v
    ensures w < n
  {
    if v < 0 then Wrap(v + n, n) else if v < n then v else Wrap(v - n, n)
  }

  /** Wrapping is the Euclidean remainder. */
  lemma {:induction false} WrapIsMod(v: int, n: nat)
    requires n > 0
    decreases if v < 0 then n - v else v
    ensures Wrap(v, n) == v % n
  {
    if v < 0 {
      WrapIsMod(v + n, n);
      ModShift(v, n);
    } else if v >= n {
      WrapIsMod(v - n, n);
      ModShift(v, n);
    } else {
      DivModUnique(v, n, 0, v);
    }
  }

  /** Coordinate c displaced by `disp` along `dimension`, wrapping periodically. */
  function Shifted(d: Dims, c: Coord, dimension: nat, disp: int): (s: Coord)
    requires InGrid(d, c)
    ensures InGrid(d, s)
  {
    if dimension == 0 then Coord(Wrap(c.x + disp, d.x), c.y)
    else Coord(c.x, Wrap(c.y + disp, d.y))
  }

  /** MPI_Cart_shift on a periodic grid: the rank displaced by `disp` along `dimension`. */
  function Neighbour(d: Dims, r: nat, dimension: nat, disp: int): (n: nat)
    requires r < d.Size() && dimension < 2
    ensures n < d.Size()
  {
    CartRank(d, Shifted(d, CartCoords(d, r), dimension, disp))
  }

  /** Source and destination of MPI_Cart_shift(comm, 0, 1) and (comm, 1, 1). */
  function West(d: Dims, r: nat): nat requires r < d.Size() { Neighbour(d, r, 0, -1) }
  function East(d: Dims, r: nat): nat requires r < d.Size() { Neighbour(d, r, 0, 1) }
  function South(d: Dims, r: nat): nat requires r < d.Size() { Neighbour(d, r, 1, -1) }
  function North(d: Dims, r: nat): nat requires r < d.Size() { Neighbour(d, r, 1, 1) }

  /** The neighbour sits at the coordinate shifted by disp, wrapped periodically,
      and every other coordinate component is unchanged. */
  lemma NeighbourCoords(d: Dims, r: nat, dimension: nat, disp: int)
    requires r < d.Size() && dimension < 2
    ensures var c, n := CartCoords(d, r), CartCoords(d, Neighbour(d, r, dimension, disp));
            if dimension == 0 then n == Coord(Wrap(c.x + disp, d.x), c.y)
            else n == Coord(c.x, Wrap(c.y + disp, d.y))
  {
    CoordsOfRank(d, Shifted(d, CartCoords(d, r), dimension, disp));
  }

  /** Wrapping twice in opposite directions returns to the start. */
  lemma WrapBack(v: nat, disp: int, n: nat)
    requires v < n
    ensures Wrap(Wrap(v + disp, n) - disp, n) == v
  {
    WrapIsMod(v + disp, n);
    WrapIsMod(Wrap(v + disp, n) - disp, n);
    ModBack(v, disp, n);
  }

  /** The same, stated with Euclidean remainders. */
  lemma ModBack(v: nat, disp: int, n: nat)
    requires v < n
    ensures ((v + disp) % n - disp) % n == v
  {
    var q := (v + disp) / n;
    assert (v + disp) % n - disp == (-q) * n + v;
    DivModUnique((v + disp) % n - disp, n, -q, v);
  }

  /** Shifting by disp and then by -disp along the same dimension returns to the
      same rank, at the edges of the grid too. */
  lemma {:induction false} ShiftInverse(d: Dims, r: nat, dimension: nat, disp: int)
    requires r < d.Size() && dimension < 2
    ensures Neighbour(d, Neighbour(d, r, dimension, disp), dimension, -disp) == r
  {
    var back := Neighbour(d, Neighbour(d, r, dimension, disp), dimension, -disp);
    ShiftBack(d, r, dimension, disp);
    CoordsInjective(d, back, r);
  }

  /** Shifting there and back along one dimension restores the coordinates. */
  lemma ShiftBack(d: Dims, r: nat, dimension: nat, disp: int)
    requires r < d.Size() && dimension < 2
    ensures CartCoords(d, Neighbour(d, Neighbour(d, r, dimension, disp), dimension, -disp)) == CartCoords(d, r)
  {
    var c := CartCoords(d, r);
    var s := Shifted(d, c, dimension, disp);
    CoordsOfRank(d, s);
    CoordsOfRank(d, Shifted(d, s, dimension, -disp));
    ShiftedBack(d, c, dimension, disp);
  }

  /** A coordinate shifted by disp and then by -disp is where it started. */
  lemma ShiftedBack(d: Dims, c: Coord, dimension: nat, disp: int)
    requires InGrid(d, c)
    ensures Shifted(d, Shifted(d, c, dimension, disp), dimension, -disp) == c
  {
    if dimension == 0 {
      WrapBack(c.x, disp, d.x);
      assert Wrap(c.x + disp, d.x) + -disp == Wrap(c.x + disp, d.x) - disp;
    } else {
      WrapBack(c.y, disp, d.y);
      assert Wrap(c.y + disp, d.y) + -disp == Wrap(c.y + disp, d.y) - disp;
    }
  }

  /** East and west are inverse, and so are north and south, for every rank. */
  lemma OppositeNeighbours(d: Dims, r: nat)
    requires r < d.Size()
    ensures East(d, West(d, r)) == r && West(d, East(d, r)) == r
    ensures North(d, South(d, r)) == r && South(d, North(d, r)) == r
  {
    ShiftInverse(d, r, 0, -1);
    ShiftInverse(d, r, 0, 1);
    ShiftInverse(d, r, 1, -1);
    ShiftInverse(d, r, 1, 1);
  }

  /** With one process along x the rank is its own east/west neighbour; with at most
      two, its west and east neighbours coincide; with three or more they differ. */
  lemma NarrowDimensions(d: Dims, r: nat)
    requires r < d.Size()
    ensures West(d, r) == r <==> d.x == 1
    ensures West(d, r) == East(d, r) <==> d.x <= 2
    ensures South(d, r) == r <==> d.y == 1
    ensures South(d, r) == North(d, r) <==> d.y <= 2
  {
    var c := CartCoords(d, r);
    NeighbourCoords(d, r, 0, -1);
    NeighbourCoords(d, r, 0, 1);
    NeighbourCoords(d, r, 1, -1);
    NeighbourCoords(d, r, 1, 1);
    WrapSmall(c.x, d.x);
    WrapSmall(c.y, d.y);
    if West(d, r) == r { assert CartCoords(d, West(d, r)) == c; }
    if West(d, r) == East(d, r) { assert CartCoords(d, West(d, r)) == CartCoords(d, East(d, r)); }
    if South(d, r) == r { assert CartCoords(d, South(d, r)) == c; }
    if South(d, r) == North(d, r) { assert CartCoords(d, South(d, r)) == CartCoords(d, North(d, r)); }
    if d.x == 1 || d.x <= 2 { CoordsOfRank(d, c); }
    if d.y == 1 || d.y <= 2 { CoordsOfRank(d, c); }
  }

  /** The two unit shifts of v along an extent n, spelled out. */
  lemma WrapSmall(v: nat, n: nat)
    requires v < n
    ensures Wrap(v - 1, n) == v <==> n == 1
    ensures Wrap(v - 1, n) == Wrap(v + 1, n) <==> n <= 2
    ensures Wrap(v + 1, n) == v <==> n == 1
  {
    assert Wrap(v - 1, n) == if v >= 1 then v - 1 else n - 1;
    assert Wrap(v + 1, n) == if v + 1 < n then v + 1 else 0;
  }

  /** The state heatsim_init builds for one process. */
  datatype Heatsim = Heatsim(
    rank: nat,
    rankCount: nat,
    dims: Dims,
    coordinates: Coord,
    westPeer: nat,
    eastPeer: nat,
    southPeer: nat,
    northPeer: nat)

  /** The calls heatsim_init makes for this rank, in order. */
  function InitCalls(rank: nat): seq<Call> {
    [CommRank, CommSize, CartCreate, CoordsQuery(rank), CartShift(0), CartShift(1)]
  }

  /** heatsim_init. `rank` and `size` are what MPI_Comm_rank / MPI_Comm_size report
      on MPI_COMM_WORLD; `faults` are the calls the runtime makes fail. The
      unsigned dimensions are converted to `int`; MPI_Cart_create rejects a grid
      larger than the group (or a negative dimension), and a process outside a
      smaller grid gets MPI_COMM_NULL, on which MPI_Cart_coords fails. */
  function Init(rank: nat, size: nat, dimX: nat, dimY: nat, faults: set<Call>): (r: Result<Heatsim>)
    requires rank < size
    requires dimX < TWO_32 && dimY < TWO_32
    ensures r.Ok? <==>
              (forall c :: c in InitCalls(rank) ==> c !in faults)
              && dimX < TWO_31 && dimY < TWO_31
              && dimX * dimY <= size && rank < dimX * dimY
    ensures r.Ok? ==>
              var h, d := r.value, Dims(dimX, dimY);
              && h.rank == rank && h.rankCount == size && h.dims == d
              && h.rank < d.Size()
              && h.coordinates.x < dimX && h.coordinates.y < dimY
              && CartRank(d, h.coordinates) == rank
              && h.westPeer < d.Size() && h.eastPeer < d.Size()
              && h.southPeer < d.Size() && h.northPeer < d.Size()
              && CartCoords(d, h.westPeer) == Coord(Wrap(h.coordinates.x - 1, dimX), h.coordinates.y)
              && CartCoords(d, h.eastPeer) == Coord(Wrap(h.coordinates.x + 1, dimX), h.coordinates.y)
              && CartCoords(d, h.southPeer) == Coord(h.coordinates.x, Wrap(h.coordinates.y - 1, dimY))
              && CartCoords(d, h.northPeer) == Coord(h.coordinates.x, Wrap(h.coordinates.y + 1, dimY))
  {
    var d := Dims(dimX, dimY);
    if CommRank in faults then Err(Failed(CommRank))
    else if CommSize in faults then Err(Failed(CommSize))
    else if CartCreate in faults || I32(dimX) < 0 || I32(dimY) < 0 || d.Size() > size then Err(Failed(CartCreate))
    else if CoordsQuery(rank) in faults || rank >= d.Size() then Err(Failed(CoordsQuery(rank)))
    else if CartShift(0) in faults then Err(Failed(CartShift(0)))
    else if CartShift(1) in faults then Err(Failed(CartShift(1)))
    else
      NeighbourCoords(d, rank, 0, -1);
      NeighbourCoords(d, rank, 0, 1);
      NeighbourCoords(d, rank, 1, -1);
      NeighbourCoords(d, rank, 1, 1);
      Ok(Heatsim(rank, size, d, CartCoords(d, rank),
                 West(d, rank), East(d, rank), South(d, rank), North(d, rank)))
  }
}
